=== FILE: README.md ===
# secret-voting, modelled in Dafny

secret-voting runs an anonymous vote in two steps. A registration front end
(`vote-registration/app.py`, and its early prototype `app.py`) collects the
registrations of a round and, when an admin ends the round, hands every
registered session a random display token. The published list of tokens is
sorted, so it cannot be linked back to names. A ballot box
(`ballot-box/app.py` over the store in `ballot-box/db.py`) keeps one vote row
per poll and token. A token's holder can cast and recast an answer while the
poll is active, and the admin reads the tally.

This project models the decision logic of those four files:

- `registration.dfy`, module `Registration`: the registration round.
  - Its state: the three parallel lists, the session maps and the admin list.
  - The single-use login tokens.
  - The handlers register, reset, start, end and connect, each a pure
    transition that returns its emitted payload.
  - The round invariant, proved over every run of handlers.
- `prototype.dfy`, module `Prototype`: the prototype.
  - Names, rooms and minted tokens.
  - The room-token re-draw loop.
  - The handlers register, reset and end, and the prototype's invariants.
  - Runs with the reset as written, which keep the room invariant, and runs
    with the corrected reset, which also keep one room per name.
- `poll_store.dfy`, module `PollStore`: the three tables as maps, plus the
  store operations:
  - `add_poll`, `activate_poll` and `close_poll`;
  - `get_vote`, `get_votes`, `get_polls` and `get_results`;
  - the poll lifecycle prepared < active < closed.
  - The tally is a pure function. Its counts are proved exact, and they sum to
    the number of votes.
- `ballot_box.dfy`, module `BallotBox`:
  - vote submission, as written and corrected (see Findings);
  - the vote form's state check;
  - answer-label clean-up with Python's `str.strip`, and poll creation.
- `tokens.dfy` (module `Tokens`): the token alphabet and generator.
  `ordering.dfy` (module `Ordering`): Python's string order, sorting, and the
  append-then-sort loop both token minters run. `wrappers.dfy`: `Option`.

Randomness comes in as parameters. The handlers receive a `draws` sequence
in which each element is one whole generated token, constrained only by its
length and alphabet; only `GenerateToken` works on single-character
`random.choice` picks. `EveryTokenIsDrawable` shows that this constraint admits exactly
the generator's outputs.

Sending (`emit`, `broadcast`, rooms, `disconnect`) is replaced by returned
replies. Each handler is one atomic step.

## Model

| member | source | states |
|---|---|---|
| Ordering.LeTotal | vote-registration/app.py:185 | Python's string order compares any two strings |
| Ordering.LeTransitive | vote-registration/app.py:185 | the string order is transitive |
| Ordering.LeAntisymmetric | vote-registration/app.py:185 | two strings each at most the other are equal |
| Ordering.Insert | app.py:41-42 | inserting into a sorted list keeps it sorted and adds exactly that element |
| Ordering.Sort | vote-registration/app.py:183-185 | the result is sorted and is a permutation of the input |
| Ordering.SortedPermutationUnique | vote-registration/app.py:185 | two sorted arrangements of the same elements are identical, so any correct sort, `list.sort` included, gives the model's result |
| Ordering.AppendEachSorted | vote-registration/app.py:237-241 | appending and re-sorting after each draw ends with exactly the old elements plus the draws, sorted |
| Ordering.AppendEachSortedIsSort | app.py:69-72 | the append-then-sort loop equals one sort of everything |
| Ordering.DistinctIffSingleOccurrences | vote-registration/app.py:178 | a list has no duplicates exactly when every element occurs once |
| Ordering.SortFreshKeepsDistinct | app.py:38-42 | adding a token not yet listed and sorting keeps the list duplicate-free |
| Tokens.AlphabetIsAlnum | vote-registration/app.py:283 | `ascii_letters + digits` holds exactly the characters [A-Za-z0-9] |
| Tokens.GenerateToken | vote-registration/app.py:282-289 | n picks give an n-character token over [A-Za-z0-9], character i being the picked alphabet entry |
| Tokens.EveryTokenIsDrawable | app.py:109-111 | every [A-Za-z0-9] string of the right length is a possible generator output |
| Registration.Register | vote-registration/app.py:169-193 | when registration is inactive: refused, nothing changes. Unknown session: KeyError, nothing changes. Already-registered user id: refused, nothing changes. Otherwise: one entry appended to names and user ids, the session id added to the sorted list, the session's identity records removed, nothing else in the server changed, and the round invariant kept |
| Registration.Reopened | vote-registration/app.py:200-204 | an emptied round is open and satisfies the round invariant, with title and link kept |
| Registration.Reset | vote-registration/app.py:196-207 | ignored for non-admins; otherwise opens registration and empties the three lists, and nothing else changes |
| Registration.Start | vote-registration/app.py:210-223 | like reset, but also sets title and link and broadcasts the title |
| Registration.Deliveries | vote-registration/app.py:238-245 | the i-th registered session receives the i-th token with the round's link |
| Registration.End | vote-registration/app.py:226-251 | ignored for non-admins or an inactive round. Otherwise: registration closes, only the session list is cleared, and `all_users` is the names. `all_tokens` is sorted, is a permutation of the draws and holds 8-character tokens, one delivered to each registered session |
| Registration.Login | vote-registration/app.py:79-105 | a 50-character login token is recorded for the identity. Other logins, the round, the admins and the three session maps are untouched |
| Registration.Connect | vote-registration/app.py:254-279 | an unknown token raises and changes nothing. A known token is consumed and every other pending login is kept as it was. The session gets its identity, admins are added to the admin list, and `already_registered` holds exactly when the user id is registered |
| Registration.StepKeepsValid | vote-registration/app.py:178-248 | every handler keeps the round invariant |
| Registration.RunKeepsValid | vote-registration/app.py:178-248 | from any state meeting the round invariant, in every run the user ids stay duplicate-free, and while registration is active the three lists have equal length |
| Registration.RunFromStartKeepsValid | vote-registration/app.py:19-44 | from process start (empty lists, registration inactive), every run keeps the round invariant and user ids duplicate-free |
| Registration.RegisterSameUserTwice | vote-registration/app.py:177-184 | a second session of the same user is refused, and the user id is listed once |
| Registration.LoginTokenSingleUse | vote-registration/app.py:257-259 | a login token gives its identity to one connection; presenting it again is refused without change |
| Registration.EndTokensHideOrder | vote-registration/app.py:237-251 | the published token list depends only on which tokens were drawn, not on which session got which |
| Registration.ReRegisterAfterResetRaises | vote-registration/app.py:175-187 | a registered session gave up its identity record, so after a reset its next registration raises and changes nothing |
| Prototype.FirstFresh | app.py:38-40 | the re-draw loop stops at the first draw that is not yet a room |
| Prototype.Register | app.py:32-49 | ignored while closed. Otherwise the name is appended without any duplicate check, and the new room is the first draw not yet a room. The broadcast carries the given name, all names and that room. Rooms stay sorted and duplicate-free |
| Prototype.Reset | app.py:52-60 | opens registration and empties names and tokens but keeps the rooms |
| Prototype.ResetClearingRooms | app.py:52-60 | the corrected reset also empties the rooms, restoring both invariants |
| Prototype.Deliveries | app.py:69-76 | the i-th room receives the i-th token |
| Prototype.End | app.py:63-80 | ignored while closed. Otherwise registration closes, the rooms are emptied, one token is minted per room present before, and the token list is kept sorted |
| Prototype.ResetKeepsStaleRooms | app.py:52-57 | as written: after register, reset and end, `all_users` is empty but a token is minted for every stale room |
| Prototype.ResetClearingRoomsMintsNone | app.py:52-80 | with the corrected reset the same sequence mints no token |
| Prototype.StepKeepsValid | app.py:32-80 | with the corrected reset, every handler keeps the invariants: rooms sorted and duplicate-free, no minted tokens while open, no rooms once closed, and one room per name while open |
| Prototype.RunKeepsValid | app.py:21-80 | with the corrected reset, the invariants and one room per name while open hold after any run, and the minted-token list is empty while registration is open |
| Prototype.StepAsWrittenKeepsValid | app.py:32-80 | every handler as written, the reset that keeps the rooms included, keeps rooms sorted and duplicate-free, no minted tokens while open, and no rooms once closed |
| Prototype.RunAsWrittenKeepsValid | app.py:21-80 | for the program as written, after any run the rooms are sorted and duplicate-free, and while `voting_active` holds `generated_tokens` is empty |
| Prototype.EndTokensHideOrder | app.py:69-80 | the published token list depends only on the tokens drawn |
| Prototype.EndMintsOnePerName | app.py:69-80 | with the corrected reset (one room per name), ending mints exactly one token per registered name; as written, a reset breaks this (see Findings) |
| Prototype.RunsFromStartKeepValid | app.py:21-24 | from the start state (registration open, all lists empty), every run with the corrected reset keeps both invariants, and every run as written keeps the room invariant |
| PollStore.EmptyDbValid | ballot-box/db.py:133-136 | the freshly created, empty tables are consistent and every cast answer is an own option |
| PollStore.OptionsOf | ballot-box/db.py:27 | a poll's options are exactly the option rows whose poll id is that poll |
| PollStore.GetPollById | ballot-box/db.py:84-85 | found exactly when the poll exists |
| PollStore.GetPolls | ballot-box/db.py:87-88 | exactly the polls in the given state |
| PollStore.GetPollsPartition | ballot-box/db.py:15-18 | every poll is listed under exactly one state |
| PollStore.NewOptions | ballot-box/db.py:94-95 | the i-th label becomes the option with the i-th fresh id |
| PollStore.AddPoll | ballot-box/db.py:90-98 | a new poll in state prepared with one option per label, in input order |
| PollStore.AddPollKeepsValid | ballot-box/db.py:90-98 | the poll id is fresh, the poll's options are exactly the fresh ids, existing polls keep their rows, and consistency is kept |
| PollStore.AddPollFrame | ballot-box/db.py:90-98 | nothing else changes: the poll table gains exactly the new poll, the option ids grow by exactly the fresh range, every existing option keeps its row, and every new option belongs to the new poll |
| PollStore.AddPollOptionsInOrder | ballot-box/db.py:94-95 | each option of the new poll carries the label at its position |
| PollStore.ActivatePoll | ballot-box/db.py:100-107 | a missing or not-prepared poll gives false and no change. A prepared poll whose tokens repeat or already hold a vote row rolls back with the duplicate-key outcome and no change. Otherwise the poll becomes active with exactly one blank vote per token, and nothing else changes |
| PollStore.ClosePoll | ballot-box/db.py:109-111 | closed from any state; nothing else changes; consistency and lifecycle order kept |
| PollStore.ClosePollIdempotent | ballot-box/db.py:109-111 | closing twice is closing once |
| PollStore.NoReactivation | ballot-box/db.py:100-104 | an activated or closed poll is never activated again |
| PollStore.GetVote | ballot-box/db.py:113-114 | the one vote a token holds for the poll, found exactly when its row exists |
| PollStore.GetVotes | ballot-box/db.py:116-117 | all of the poll's votes, none missing, no two with the same token |
| PollStore.ActivatedTokensHoldBlankVotes | ballot-box/db.py:64-66 | after activation each listed token holds an unanswered vote |
| PollStore.AnswerLabel | ballot-box/db.py:121-122 | the outer join yields a label exactly for answer ids that are options |
| PollStore.GetResults | ballot-box/db.py:119-127 | each row's count is the number of the poll's votes with that answer, NULL included. Every vote's answer has a row, and the label is the option's. Every option of the poll that no vote references has a row with count 0. Every other row has votes |
| PollStore.TotalCountsVotes | ballot-box/db.py:121-123 | exact per-answer counts add up to the votes whose answer is listed |
| PollStore.ResultsCountEveryVote | ballot-box/db.py:119-127 | the counts of the results sum to the number of the poll's votes |
| PollStore.ResultsCoverOptions | ballot-box/db.py:124-127 | when answers belong to their own poll, every option of the poll is listed with its label, and no foreign option is |
| PollStore.NoVotesCountZero | ballot-box/db.py:124-127 | before anyone votes every option is listed with count 0 |
| BallotBox.LeadingSpace | ballot-box/app.py:52 | the whitespace prefix is maximal |
| BallotBox.TrailingSpace | ballot-box/app.py:52 | the whitespace suffix is maximal |
| BallotBox.Strip | ballot-box/app.py:52 | the result is the input with a whitespace prefix and suffix cut, and does not start or end with whitespace |
| BallotBox.LeadingSpaceAfterSpace | ballot-box/app.py:52 | leading whitespace can be counted piecewise |
| BallotBox.TrailingSpaceBeforeSpace | ballot-box/app.py:52 | trailing whitespace can be counted piecewise |
| BallotBox.StripCharacterized | ballot-box/app.py:52 | whitespace around a core that has none at its ends is exactly what strip removes |
| BallotBox.StripIdempotent | ballot-box/app.py:52 | stripping a stripped label changes nothing |
| BallotBox.StripBlankIffAllSpace | ballot-box/app.py:52 | a label strips to empty exactly when it is all whitespace |
| BallotBox.NormalizeLabels | ballot-box/app.py:51-52 | the cleaned labels are non-blank and stripped, and no more than the inputs |
| BallotBox.NormalizeLabelsConcat | ballot-box/app.py:52 | cleaning works label by label and keeps relative order |
| BallotBox.NormalizeOneLabel | ballot-box/app.py:52 | a single label is kept stripped, or dropped when blank |
| BallotBox.NormalizeLabelsIdempotent | ballot-box/app.py:52 | cleaning cleaned labels changes nothing |
| BallotBox.NewPoll | ballot-box/app.py:45-57 | creates a prepared poll under the given title whose options, with consecutive fresh ids, are the cleaned answers in order; no vote changes |
| BallotBox.NewPollOptionsClean | ballot-box/app.py:51-56 | each option of the new poll is a cleaned label, one per non-blank answer |
| BallotBox.VoteForm | ballot-box/app.py:12-18 | not-active message exactly when the poll is not active; otherwise the form with exactly the poll's options and their labels |
| BallotBox.VoteFormMatchesSubmission | ballot-box/app.py:12-33 | with the corrected submission (`SubmitVote`), for a known token, a vote succeeds exactly for an answer the form lists, and the form shows the not-active message exactly when the submission answers not active |
| BallotBox.SubmitVoteAsWritten | ballot-box/app.py:21-33 | the token check comes first, then the state check. An answer id that is no option fails the foreign key: a storage error, rolled back. Otherwise only that vote is overwritten with the answer, whichever poll the answer belongs to |
| BallotBox.SubmitVote | ballot-box/app.py:21-33 | as written, but an answer that is not an option of this poll is refused. Consistency, lifecycle order and "answers belong to their own poll" are kept |
| BallotBox.ResubmissionOverwrites | ballot-box/app.py:32-33 | a second submission replaces the first choice |
| BallotBox.CrossPollAnswerHidesOption | ballot-box/app.py:32 | as written, voting in one poll for another poll's option is accepted, and that option disappears from its own poll's results |
| BallotBox.CrossPollExample | ballot-box/app.py:21-33 | a concrete two-poll store on which this happens, although the voted poll's form does not list that answer; the corrected submission refuses it |
| BallotBox.SubmitVoteKeepsResultsComplete | ballot-box/db.py:124-127 | with the corrected submission every poll's results keep listing all of its options |

## Left out

- Flask routing, templates and the browser client are left out. The reply values stand in for rendered pages and emitted messages.
- The SAML login (`sso`, `acs`, `admin`, `presenter`, `slo`, `sls`, `metadata`) is left out because it is foreign-library code. `Registration.Login` stands for the one state change `acs` makes, recording the identity under a fresh token. The permission checks on `RelayState` only choose a page.
- Socket.IO delivery (`emit`, `broadcast`, `close_room`, `disconnect`, `join_room`) is not modelled. Payloads are returned, and message order and delivery are not.
- Concurrency is not modelled: each handler is one atomic step. The read of `registration_active` outside the lock (vote-registration/app.py:171) is not modelled as a race. The same holds for the early emission of `voting_end_broadcast`.
- Randomness is not modelled. Draws are parameters constrained by length and alphabet. No uniqueness is assumed, except for the prototype's explicit re-draw loop, which needs one fresh draw among those supplied.
- The SQLAlchemy session, the SQLite engine, the `PRAGMA foreign_keys` listener and `db_test` are not modelled. Their effect on outcomes is modelled: a foreign-key or primary-key violation at commit leaves the store unchanged.
- Missing polls are not modelled as an error path. `close_poll`, `vote_form` and `submit_vote` dereference a missing poll and crash, so the model requires the poll to exist.
- The type of the submitted answer is not modelled. `submit_vote` stores the raw form string; the model takes an answer id, and a non-numeric string is not modelled.
- `poll.active` (ballot-box/app.py:16,30) is not an attribute of `Poll`; the model reads it as state active.
- `new_poll` calls `add_poll` with four arguments and the store's `add_poll` takes two. `BallotBox.NewPoll` passes the title and the cleaned labels. The token list read from the form is not modelled.
- `admin_overview` calls `get_polls(True)` and `get_polls(False)`, passing a bool for a state. Only `PollStore.GetPolls` over a state is modelled.
- The `close_poll` and `poll_results` routes only forward to the store and are not modelled separately.
- `activate_poll` is never called from the routes. It is modelled as a store operation only.
- `PollStore.GetPolls` returns a set because the query has no ORDER BY, so the order of `get_polls`, `get_votes` and `get_results` is not modelled.
- The 1024- and 20-character column widths are not enforced by SQLite and are not modelled.

## Findings

| source | as written | input that shows it | evidently intended | confidence | as-written member | corrected member |
|---|---|---|---|---|---|---|
| ballot-box/app.py:32 | `submit_vote` stores any answer id that is an existing option, whatever poll the option belongs to. Because q2 of `get_results` drops every option any vote references, that option then vanishes from its own poll's results | store of `CrossPollExample`: polls 1 and 2 active, option 1 of poll 1, option 2 of poll 2, blank vote (1, "t"); submit to poll 1 with token "t" and answer 2 | reject an answer that is not an option of the poll voted on | not executed; high | BallotBox.SubmitVoteAsWritten (shown by BallotBox.CrossPollAnswerHidesOption, BallotBox.CrossPollExample) | BallotBox.SubmitVote (BallotBox.SubmitVoteKeepsResultsComplete) |
| app.py:52-57 | `voting_reset` empties names and minted tokens but keeps `registered_rooms`, so the next `voting_end` mints tokens for the rooms of a discarded round | register "a" on a fresh state, then reset, then end: `all_users` is empty, `all_tokens` has one token | reset also empties the rooms | not executed; medium | Prototype.Reset (shown by Prototype.ResetKeepsStaleRooms) | Prototype.ResetClearingRooms (Prototype.ResetClearingRoomsMintsNone, Prototype.RunKeepsValid) |

=== FILE: ballot_box.dfy ===
/** The request handlers of ballot-box/app.py that carry decisions: the
    vote form's state check, vote submission, and the clean-up of answer
    labels when an admin creates a poll.

    The handlers read `poll.active`, which `Poll` does not define; the
    evident meaning, used here, is `state == Active`. `new_poll` calls
    `add_poll` with four arguments (label, `True`, the answers, the tokens)
    where the store takes two; `NewPoll` passes the label and the cleaned
    answers, and the tokens are not part of this model. */
module BallotBox {
  import opened Wrappers
  import opened PollStore

  // ---------------------------------------------------------------------
  // Answer labels

  /** Python's `str.isspace` for one character: the characters `str.strip()`
      removes. */
  predicate IsSpace(c: char)
  {
    var n := c as int;
    || (0x09 <= n <= 0x0D) || (0x1C <= n <= 0x20)
    || n == 0x85 || n == 0xA0 || n == 0x1680
    || (0x2000 <= n <= 0x200A)
    || n == 0x2028 || n == 0x2029 || n == 0x202F || n == 0x205F || n == 0x3000
  }

  predicate AllSpace(s: string)
  {
    forall i :: 0 <= i < |s| ==> IsSpace(s[i])
  }

  /** The number of whitespace characters at the front of `s`. */
  function LeadingSpace(s: string): (n: nat)
    ensures n <= |s|
    ensures AllSpace(s[..n])
    ensures n == |s| || !IsSpace(s[n])
  {
    if s == [] || !IsSpace(s[0]) then 0
    else
      var n := 1 + LeadingSpace(s[1..]);
      assert forall i :: 1 <= i < n ==> s[..n][i] == s[1..][..n - 1][i - 1];
      n
  }

  /** The number of whitespace characters at the end of `s`. */
  function TrailingSpace(s: string): (n: nat)
    ensures n <= |s|
    ensures AllSpace(s[|s| - n..])
    ensures n == |s| || !IsSpace(s[|s| - 1 - n])
  {
    if s == [] || !IsSpace(s[|s| - 1]) then 0
    else
      var init := s[..|s| - 1];
      var n := 1 + TrailingSpace(init);
      assert s[|s| - n..] == init[|init| - (n - 1)..] + [s[|s| - 1]];
      n
  }

  /** `str.strip()`. */
  function Strip(s: string): (r: string)
    ensures r == [] || (!IsSpace(r[0]) && !IsSpace(r[|r| - 1]))
    ensures LeadingSpace(s) + |r| <= |s|
    ensures r == s[LeadingSpace(s)..LeadingSpace(s) + |r|]
    ensures AllSpace(s[..LeadingSpace(s)]) && AllSpace(s[LeadingSpace(s) + |r|..])
  {
    var i := LeadingSpace(s);
    var t := s[i..];
    var j := |t| - TrailingSpace(t);
    assert t[j..] == s[i + j..];
    t[..j]
  }

  /** Whitespace at the front can be skipped first. */
  lemma {:induction false} LeadingSpaceAfterSpace(p: string, x: string)
    requires AllSpace(p)
    ensures LeadingSpace(p + x) == |p| + LeadingSpace(x)
    decreases |p|
  {
    if p != [] {
      assert (p + x)[1..] == p[1..] + x;
      LeadingSpaceAfterSpace(p[1..], x);
    } else {
      assert p + x == x;
    }
  }

  /** Whitespace at the end can be skipped first. */
  lemma {:induction false} TrailingSpaceBeforeSpace(x: string, q: string)
    requires AllSpace(q)
    ensures TrailingSpace(x + q) == TrailingSpace(x) + |q|
    decreases |q|
  {
    if q != [] {
      var q' := q[..|q| - 1];
      assert (x + q)[..|x + q| - 1] == x + q';
      TrailingSpaceBeforeSpace(x, q');
    } else {
      assert x + q == x;
    }
  }

  /** `strip` is characterised by its result: whatever surrounds a core
      without whitespace at either end, if only whitespace, is removed, and
      nothing else. */
  lemma StripCharacterized(p: string, r: string, q: string)
    requires AllSpace(p) && AllSpace(q)
    requires r == [] || (!IsSpace(r[0]) && !IsSpace(r[|r| - 1]))
    ensures Strip(p + r + q) == r
  {
    var s := p + r + q;
    assert s == p + (r + q);
    LeadingSpaceAfterSpace(p, r + q);
    if r == [] {
      assert r + q == q + [];
      LeadingSpaceAfterSpace(q, []);
      assert q + [] == q;
    } else {
      assert (r + q)[0] == r[0];
      assert s[|p|..] == r + q;
      TrailingSpaceBeforeSpace(r, q);
      assert (r + q)[..|r|] == r;
    }
  }

  /** Stripping twice strips nothing more. */
  lemma StripIdempotent(s: string)
    ensures Strip(Strip(s)) == Strip(s)
  {
    var r := Strip(s);
    StripCharacterized([], r, []);
    assert [] + r + [] == r;
  }

  /** A label is dropped exactly when it is whitespace only. */
  lemma StripBlankIffAllSpace(s: string)
    ensures Strip(s) == [] <==> AllSpace(s)
  {
    if AllSpace(s) {
      StripCharacterized(s, [], []);
      assert s + [] + [] == s;
    }
  }

  /** `[x.strip() for x in answers if x.strip()]` (ballot-box/app.py:51-52). */
  function NormalizeLabels(xs: seq<string>): (r: seq<string>)
    ensures |r| <= |xs|
    ensures forall i :: 0 <= i < |r| ==> r[i] != [] && Strip(r[i]) == r[i]
  {
    if xs == [] then []
    else
      var s := Strip(xs[0]);
      StripIdempotent(xs[0]);
      if s != [] then [s] + NormalizeLabels(xs[1..]) else NormalizeLabels(xs[1..])
  }

  /** The clean-up works label by label and keeps the relative order: the
      labels of a concatenation are the concatenated labels. */
  lemma {:induction false} NormalizeLabelsConcat(a: seq<string>, b: seq<string>)
    ensures NormalizeLabels(a + b) == NormalizeLabels(a) + NormalizeLabels(b)
    decreases |a|
  {
    if a == [] {
      assert a + b == b;
    } else {
      assert (a + b)[0] == a[0];
      assert (a + b)[1..] == a[1..] + b;
      NormalizeLabelsConcat(a[1..], b);
    }
  }

  /** One label on its own: kept stripped, or dropped when blank. */
  lemma NormalizeOneLabel(x: string)
    ensures NormalizeLabels([x]) == if AllSpace(x) then [] else [Strip(x)]
  {
    StripBlankIffAllSpace(x);
    assert [x][1..] == [];
  }

  /** Cleaning cleaned labels changes nothing. */
  lemma {:induction false} NormalizeLabelsIdempotent(xs: seq<string>)
    ensures NormalizeLabels(NormalizeLabels(xs)) == NormalizeLabels(xs)
    decreases |xs|
  {
    if xs != [] {
      var s := Strip(xs[0]);
      var rest := NormalizeLabels(xs[1..]);
      NormalizeLabelsIdempotent(xs[1..]);
      if s != [] {
        StripIdempotent(xs[0]);
        assert ([s] + rest)[0] == s && ([s] + rest)[1..] == rest;
      }
    }
  }

  /** `new_poll` (ballot-box/app.py:45-57): creates the poll, in state
      prepared, with the cleaned answer labels as its options. */
  function NewPoll(db: Db, title: string, answers: seq<string>): (r: Added)
    ensures r.pollId in r.db.polls && r.db.polls[r.pollId] == Poll(title, Prepared)
    ensures HoldsOptions(r.db, r.pollId, db.nextAnswerId, NormalizeLabels(answers))
    ensures r.db.votes == db.votes
  {
    AddPoll(db, title, NormalizeLabels(answers))
  }

  /** A label that survives the clean-up. */
  predicate CleanLabel(s: string)
  {
    s != [] && Strip(s) == s
  }

  /** On a consistent store every option of the new poll carries a label
      that is not blank and has no surrounding whitespace, and there is one
      option per such label, so never more than answers were submitted. */
  lemma NewPollOptionsClean(db: Db, title: string, answers: seq<string>)
    requires Valid(db)
    ensures var r := NewPoll(db, title, answers);
            && Valid(r.db)
            && (forall a :: a in OptionsOf(r.db, r.pollId) ==> CleanLabel(OptionsOf(r.db, r.pollId)[a]))
            && |OptionsOf(r.db, r.pollId)| == |NormalizeLabels(answers)| <= |answers|
  {
    var labels := NormalizeLabels(answers);
    AddPollKeepsValid(db, title, labels);
    AddPollOptionsInOrder(db, title, labels);
  }

  // ---------------------------------------------------------------------
  // Voting

  /** What the vote form shows. */
  datatype FormReply =
    | NotActiveMessage(pollTitle: string)
    | BallotForm(pollTitle: string, options: map<AnswerId, string>)

  /** `vote_form` (ballot-box/app.py:12-18); the poll must exist (the
      source dereferences the missing poll otherwise). */
  function VoteForm(db: Db, pid: PollId): (r: FormReply)
    requires pid in db.polls
    ensures r.NotActiveMessage? <==> db.polls[pid].state != Active
    ensures r.pollTitle == db.polls[pid].title
    ensures r.BallotForm? ==> forall a :: a in r.options <==> a in db.options && db.options[a].pollId == pid
    ensures r.BallotForm? ==> forall a :: a in r.options ==> r.options[a] == db.options[a].text
  {
    var poll := db.polls[pid];
    if poll.state != Active then NotActiveMessage(poll.title)
    else BallotForm(poll.title, OptionsOf(db, pid))
  }

  /** The message state `submit_vote` renders. `StorageError`: the commit
      failed (foreign-key violation) and the transaction was rolled back.
      `AnswerInvalid`: the answer is not an option of this poll. */
  datatype SubmitOutcome = TokenInvalid | NotActive | Successful | StorageError | AnswerInvalid

  datatype Submission = Submission(db: Db, outcome: SubmitOutcome)

  /** `submit_vote` as written (ballot-box/app.py:21-33): any existing
      answer option is accepted, whichever poll it belongs to. */
  function SubmitVoteAsWritten(db: Db, pid: PollId, token: Token, answer: AnswerId): (s: Submission)
    requires pid in db.polls
    ensures (pid, token) !in db.votes ==> s == Submission(db, TokenInvalid)
    ensures (pid, token) in db.votes && db.polls[pid].state != Active ==> s == Submission(db, NotActive)
    ensures s.outcome == Successful <==>
              (pid, token) in db.votes && db.polls[pid].state == Active && answer in db.options
    ensures (pid, token) in db.votes && db.polls[pid].state == Active && answer !in db.options ==>
              s == Submission(db, StorageError)
    ensures s.outcome != Successful ==> s.db == db
    ensures s.outcome == Successful ==>
              && GetVote(s.db, pid, token) == Some(Vote(pid, token, Some(answer)))
              && s.db.polls == db.polls && s.db.options == db.options
              && s.db.votes.Keys == db.votes.Keys
              && (forall k :: k in db.votes && k != (pid, token) ==> s.db.votes[k] == db.votes[k])
    ensures Valid(db) ==> Valid(s.db)
  {
    if (pid, token) !in db.votes then Submission(db, TokenInvalid)
    else if db.polls[pid].state != Active then Submission(db, NotActive)
    // The answer is stored as given; the foreign key to answer_option is the
    // only check, and it fires at commit.
    else if answer !in db.options then Submission(db, StorageError)
    else Submission(db.(votes := db.votes[(pid, token) := Some(answer)]), Successful)
  }

  /** `submit_vote` as evidently intended: the answer must be an option of
      the poll voted on. */
  function SubmitVote(db: Db, pid: PollId, token: Token, answer: AnswerId): (s: Submission)
    requires pid in db.polls
    ensures (pid, token) !in db.votes ==> s == Submission(db, TokenInvalid)
    ensures (pid, token) in db.votes && db.polls[pid].state != Active ==> s == Submission(db, NotActive)
    ensures s.outcome == Successful <==>
              (pid, token) in db.votes && db.polls[pid].state == Active && answer in OptionsOf(db, pid)
    ensures s.outcome != Successful ==> s.db == db
    ensures s.outcome == Successful ==>
              && GetVote(s.db, pid, token) == Some(Vote(pid, token, Some(answer)))
              && s.db.polls == db.polls && s.db.options == db.options
              && s.db.votes.Keys == db.votes.Keys
              && (forall k :: k in db.votes && k != (pid, token) ==> s.db.votes[k] == db.votes[k])
    ensures Valid(db) ==> Valid(s.db) && Evolves(db, s.db)
    ensures AnswersOwnOptions(db) ==> AnswersOwnOptions(s.db)
  {
    if (pid, token) !in db.votes then Submission(db, TokenInvalid)
    else if db.polls[pid].state != Active then Submission(db, NotActive)
    else if answer !in OptionsOf(db, pid) then Submission(db, AnswerInvalid)
    else Submission(db.(votes := db.votes[(pid, token) := Some(answer)]), Successful)
  }

  /** With the corrected submission (`SubmitVote`), the form offers exactly
      the answers a submission for that poll is accepted with: a known
      token's vote succeeds precisely for an answer listed on the form, and
      there is no form for a poll that is not active. As written the
      submission also accepts other polls' options, see `CrossPollExample`. */
  lemma VoteFormMatchesSubmission(db: Db, pid: PollId, token: Token, answer: AnswerId)
    requires pid in db.polls && (pid, token) in db.votes
    ensures SubmitVote(db, pid, token, answer).outcome == Successful <==>
              VoteForm(db, pid).BallotForm? && answer in VoteForm(db, pid).options
    ensures VoteForm(db, pid).NotActiveMessage? <==> SubmitVote(db, pid, token, answer).outcome == NotActive
  {
  }

  /** Votes can be corrected while the poll is active: a second successful
      submission replaces the first, and the tally follows the last one. */
  lemma ResubmissionOverwrites(db: Db, pid: PollId, token: Token, first: AnswerId, second: AnswerId)
    requires pid in db.polls
    requires SubmitVote(db, pid, token, first).outcome == Successful
    requires second in OptionsOf(db, pid)
    ensures var db1 := SubmitVote(db, pid, token, first).db;
            && SubmitVote(db1, pid, token, second).outcome == Successful
            && GetVote(SubmitVote(db1, pid, token, second).db, pid, token) == Some(Vote(pid, token, Some(second)))
  {
  }

  /** As written, a vote for an option of another poll is accepted and the
      option then vanishes from the results of the poll it belongs to: it
      is no row of q1 there (no vote of that poll holds it) and no row of q2
      (a vote row references it). */
  lemma CrossPollAnswerHidesOption(db: Db, p1: PollId, p2: PollId, token: Token, a: AnswerId)
    requires Valid(db)
    requires p1 in db.polls && db.polls[p1].state == Active && (p1, token) in db.votes
    requires p2 != p1 && a in OptionsOf(db, p2)
    requires forall k :: k in db.votes ==> db.votes[k] == None
    ensures var s := SubmitVoteAsWritten(db, p1, token, a);
            && s.outcome == Successful
            && a in OptionsOf(s.db, p2)
            && Some(a) !in GetResults(s.db, p2)
            && Some(a) in GetResults(s.db, p1)
  {
    var s := SubmitVoteAsWritten(db, p1, token, a);
    assert s.db.votes[(p1, token)] == Some(a);
    assert Referenced(s.db, a);
    assert (p1, token) in PollVoteKeys(s.db, p1);
    assert VotesFor(s.db, p2, Some(a)) == {};
  }

  /** The same input, concretely: poll 1 (active, token "t") with option 1,
      poll 2 with option 2; token "t" of poll 1 votes for option 2. */
  lemma CrossPollExample()
    ensures var db := Db(
              map[1 := Poll("first", Active), 2 := Poll("second", Active)],
              map[1 := AnswerOption(1, "yes"), 2 := AnswerOption(2, "yes")],
              map[(1, "t") := None],
              3, 3);
            var s := SubmitVoteAsWritten(db, 1, "t", 2);
            && s.outcome == Successful
            && Some(2) !in GetResults(s.db, 2)
            && VoteForm(db, 1).BallotForm? && 2 !in VoteForm(db, 1).options
            && SubmitVote(db, 1, "t", 2).outcome == AnswerInvalid
  {
    var db := Db(
      map[1 := Poll("first", Active), 2 := Poll("second", Active)],
      map[1 := AnswerOption(1, "yes"), 2 := AnswerOption(2, "yes")],
      map[(1, "t") := None],
      3, 3);
    assert 2 in OptionsOf(db, 2);
    assert 2 !in OptionsOf(db, 1);
    CrossPollAnswerHidesOption(db, 1, 2, "t", 2);
  }

  /** With the corrected submission, every option of every poll stays in
      that poll's results, however votes are cast. */
  lemma SubmitVoteKeepsResultsComplete(db: Db, pid: PollId, token: Token, answer: AnswerId, q: PollId)
    requires pid in db.polls && AnswersOwnOptions(db)
    ensures var db' := SubmitVote(db, pid, token, answer).db;
            forall a :: a in OptionsOf(db', q) ==> Some(a) in GetResults(db', q)
  {
    ResultsCoverOptions(SubmitVote(db, pid, token, answer).db, q);
  }
}

=== FILE: ordering.dfy ===
/** Python's ordering of `str` values and the `list.sort()` calls that the
    registration handlers apply to lists of session ids, rooms and tokens.

    Python compares strings lexicographically by code point, a proper prefix
    being smaller; `Le` is that order. `Sort` is a functional insertion sort;
    `SortedPermutationUnique` shows that any two sorted permutations of the
    same list coincide, so `Sort` yields exactly what `list.sort()` yields. */
module Ordering {

  /** `a <= b` on Python strings. */
  predicate Le(a: string, b: string)
    decreases |a|
  {
    |a| == 0 || (|b| > 0 && (a[0] < b[0] || (a[0] == b[0] && Le(a[1..], b[1..]))))
  }

  lemma {:induction false} LeReflexive(a: string)
    ensures Le(a, a)
    decreases |a|
  {
    if |a| > 0 {
      LeReflexive(a[1..]);
    }
  }

  lemma {:induction false} LeTotal(a: string, b: string)
    ensures Le(a, b) || Le(b, a)
    decreases |a|
  {
    if |a| > 0 && |b| > 0 && a[0] == b[0] {
      LeTotal(a[1..], b[1..]);
    }
  }

  lemma {:induction false} LeTransitive(a: string, b: string, c: string)
    requires Le(a, b) && Le(b, c)
    ensures Le(a, c)
    decreases |a|
  {
    if |a| > 0 && a[0] == b[0] && b[0] == c[0] {
      LeTransitive(a[1..], b[1..], c[1..]);
    }
  }

  lemma {:induction false} LeAntisymmetric(a: string, b: string)
    requires Le(a, b) && Le(b, a)
    ensures a == b
    decreases |a|
  {
    if |a| > 0 {
      LeAntisymmetric(a[1..], b[1..]);
      assert a == [a[0]] + a[1..];
      assert b == [b[0]] + b[1..];
    }
  }

  /** The list is in the order `list.sort()` leaves it in. */
  predicate Sorted(s: seq<string>)
  {
    forall i, j :: 0 <= i < j < |s| ==> Le(s[i], s[j])
  }

  /** No value occurs twice in the list. */
  predicate Distinct<T(==)>(s: seq<T>)
  {
    forall i, j :: 0 <= i < j < |s| ==> s[i] != s[j]
  }

  /** Inserts `x` into `s` before the first element it does not exceed. */
  function Insert(x: string, s: seq<string>): (r: seq<string>)
    ensures |r| == |s| + 1
    ensures multiset(r) == multiset(s) + multiset{x}
    ensures Sorted(s) ==> Sorted(r)
  {
    if s == [] then [x]
    else if Le(x, s[0]) then
      assert Sorted(s) ==> Sorted([x] + s) by {
        if Sorted(s) {
          FirstBoundsAll(x, s);
          PrependSorted(x, s);
        }
      }
      assert s == [s[0]] + s[1..];
      [x] + s
    else
      var rest := Insert(x, s[1..]);
      assert s == [s[0]] + s[1..];
      assert Sorted(s) ==> Sorted([s[0]] + rest) by {
        if Sorted(s) {
          LeTotal(x, s[0]);
          assert forall j :: 0 <= j < |s[1..]| ==> Le(s[0], s[1..][j]);
          BoundKeptByMultiset(s[0], s[1..], x, rest);
          PrependSorted(s[0], rest);
        }
      }
      [s[0]] + rest
  }

  /** A lower bound of the head of a sorted list bounds all of it. */
  lemma FirstBoundsAll(x: string, s: seq<string>)
    requires Sorted(s) && s != [] && Le(x, s[0])
    ensures forall j :: 0 <= j < |s| ==> Le(x, s[j])
  {
    forall j | 0 < j < |s| ensures Le(x, s[j]) {
      LeTransitive(x, s[0], s[j]);
    }
  }

  /** Putting a lower bound in front of a sorted list keeps it sorted. */
  lemma PrependSorted(h: string, s: seq<string>)
    requires Sorted(s)
    requires forall j :: 0 <= j < |s| ==> Le(h, s[j])
    ensures Sorted([h] + s)
  {
    var r := [h] + s;
    forall i, j | 0 <= i < j < |r| ensures Le(r[i], r[j]) {
      assert r[j] == s[j - 1];
      if i > 0 {
        assert r[i] == s[i - 1];
      }
    }
  }

  /** A bound on every element of `t` and on `x` bounds every element of
      any arrangement of `t` plus `x`. */
  lemma BoundKeptByMultiset(h: string, t: seq<string>, x: string, rest: seq<string>)
    requires forall j :: 0 <= j < |t| ==> Le(h, t[j])
    requires Le(h, x)
    requires multiset(rest) == multiset(t) + multiset{x}
    ensures forall j :: 0 <= j < |rest| ==> Le(h, rest[j])
  {
    forall j | 0 <= j < |rest| ensures Le(h, rest[j]) {
      assert rest[j] in multiset(rest);
      if rest[j] != x {
        assert rest[j] in multiset(t);
        var k :| 0 <= k < |t| && t[k] == rest[j];
      }
    }
  }

  /** `list.sort()`: the sorted permutation of `s`. */
  function Sort(s: seq<string>): (r: seq<string>)
    ensures |r| == |s|
    ensures Sorted(r)
    ensures multiset(r) == multiset(s)
  {
    if s == [] then []
    else
      assert s == [s[0]] + s[1..];
      Insert(s[0], Sort(s[1..]))
  }

  /** Two sorted lists with the same elements are the same list, so `Sort`
      agrees with any correct sorting routine, Python's included. */
  lemma {:induction false} SortedPermutationUnique(a: seq<string>, b: seq<string>)
    requires Sorted(a) && Sorted(b)
    requires multiset(a) == multiset(b)
    ensures a == b
    decreases |a|
  {
    assert |a| == |multiset(a)| == |multiset(b)| == |b|;
    if |a| > 0 {
      assert a == [a[0]] + a[1..];
      assert b == [b[0]] + b[1..];
      assert a[0] in multiset(b);
      var j :| 0 <= j < |b| && b[j] == a[0];
      assert b[0] in multiset(a);
      var i :| 0 <= i < |a| && a[i] == b[0];
      if j > 0 { assert Le(b[0], b[j]); } else { LeReflexive(b[0]); }
      if i > 0 { assert Le(a[0], a[i]); } else { LeReflexive(a[0]); }
      LeAntisymmetric(a[0], b[0]);
      assert multiset(a[1..]) == multiset(a) - multiset{a[0]};
      assert multiset(b[1..]) == multiset(b) - multiset{b[0]};
      SortedPermutationUnique(a[1..], b[1..]);
    }
  }

  /** The loop `for d in draws: acc.append(d); acc.sort()` that both
      token-minting handlers run. */
  function AppendEachSorted(acc: seq<string>, draws: seq<string>): (r: seq<string>)
    ensures |r| == |acc| + |draws|
    ensures multiset(r) == multiset(acc) + multiset(draws)
    ensures Sorted(acc) || draws != [] ==> Sorted(r)
    decreases |draws|
  {
    if draws == [] then acc
    else
      assert draws == [draws[0]] + draws[1..];
      AppendEachSorted(Sort(acc + [draws[0]]), draws[1..])
  }

  /** Sorting after every append ends where sorting once at the end would. */
  lemma AppendEachSortedIsSort(acc: seq<string>, draws: seq<string>)
    requires draws != []
    ensures AppendEachSorted(acc, draws) == Sort(acc + draws)
  {
    SortedPermutationUnique(AppendEachSorted(acc, draws), Sort(acc + draws));
  }

  /** A list is duplicate-free exactly when each of its elements occurs once. */
  lemma {:induction false} DistinctIffSingleOccurrences<T>(s: seq<T>)
    ensures Distinct(s) <==> forall x :: x in s ==> multiset(s)[x] == 1
    decreases |s|
  {
    if |s| > 0 {
      var h, t := s[0], s[1..];
      assert s == [h] + t;
      DistinctIffSingleOccurrences(t);
      assert Distinct(s) <==> h !in t && Distinct(t) by {
        if Distinct(s) {
          forall i, j | 0 <= i < j < |t| ensures t[i] != t[j] {
            assert t[i] == s[i + 1] && t[j] == s[j + 1];
          }
          forall k | 0 <= k < |t| ensures t[k] != h {
            assert t[k] == s[k + 1];
          }
        }
        if h !in t && Distinct(t) {
          forall i, j | 0 <= i < j < |s| ensures s[i] != s[j] {
            if i == 0 { assert s[j] == t[j - 1]; }
            else { assert s[i] == t[i - 1] && s[j] == t[j - 1]; }
          }
        }
      }
      if forall x :: x in s ==> multiset(s)[x] == 1 {
        assert multiset(s)[h] == 1;
        assert h !in t;
        forall x | x in t ensures multiset(t)[x] == 1 {
          assert multiset(s)[x] == 1;
        }
      }
      if Distinct(s) {
        forall x | x in s ensures multiset(s)[x] == 1 {
          if x == h {
            assert multiset(t)[h] == 0;
          }
        }
      }
    }
  }

  /** Adding a value that is not yet present to a duplicate-free list and
      sorting keeps it duplicate-free. */
  lemma SortFreshKeepsDistinct(s: seq<string>, x: string)
    requires Distinct(s) && x !in s
    ensures Distinct(Sort(s + [x]))
  {
    var r := Sort(s + [x]);
    DistinctIffSingleOccurrences(s);
    DistinctIffSingleOccurrences(r);
    forall y | y in r ensures multiset(r)[y] == 1 {
      assert y in multiset(r);
      assert multiset(r) == multiset(s) + multiset{x};
      if y == x {
        assert multiset(s)[x] == 0;
      } else {
        assert y in multiset(s);
      }
    }
  }
}

=== FILE: poll_store.dfy ===
/** The poll store of ballot-box/db.py, with its three tables as maps:
    polls by id, answer options by id, and votes by the pair
    (poll id, token), which is the vote table's primary key. Ids are handed
    out by counters, as the database's integer primary keys are.

    Each operation is one committed transaction; an operation whose commit
    fails leaves the store as it was. */
module PollStore {
  import opened Wrappers
  import opened Ordering

  type PollId = nat
  type AnswerId = nat
  /** A ballot token. */
  type Token = string

  /** `PollState`. */
  datatype PollState = Prepared | Active | Closed

  /** The enum's value: the lifecycle order prepared < active < closed. */
  function Rank(s: PollState): nat
  {
    match s
    case Prepared => 0
    case Active => 1
    case Closed => 2
  }

  /** A row of the poll table. */
  datatype Poll = Poll(title: string, state: PollState)

  /** A row of the answer_option table. */
  datatype AnswerOption = AnswerOption(pollId: PollId, text: string)

  /** A row of the vote table; `answerId` is NULL until the token votes. */
  datatype Vote = Vote(pollId: PollId, token: Token, answerId: Option<AnswerId>)

  datatype Db = Db(
    polls: map<PollId, Poll>,
    options: map<AnswerId, AnswerOption>,
    votes: map<(PollId, Token), Option<AnswerId>>,
    nextPollId: PollId,
    nextAnswerId: AnswerId)

  /** An empty database; the first ids handed out are 1. */
  const EmptyDb: Db := Db(map[], map[], map[], 1, 1)

  /** The store's integrity: ids below their counters, every option and
      every vote belongs to an existing poll, votes exist only once a poll
      has been activated, and a vote's answer is an existing option (the
      foreign key, enforced because the connection turns foreign keys on). */
  predicate Valid(db: Db)
  {
    && (forall p :: p in db.polls ==> p < db.nextPollId)
    && (forall a :: a in db.options ==> a < db.nextAnswerId && db.options[a].pollId in db.polls)
    && (forall k :: k in db.votes ==> k.0 in db.polls && db.polls[k.0].state != Prepared)
    && (forall k :: k in db.votes && db.votes[k].Some? ==> db.votes[k].value in db.options)
  }

  /** Every cast answer is an option of the poll the vote belongs to. The
      store does not enforce this; vote submission has to. */
  predicate AnswersOwnOptions(db: Db)
  {
    forall k :: k in db.votes && db.votes[k].Some? ==>
      db.votes[k].value in db.options && db.options[db.votes[k].value].pollId == k.0
  }

  /** A freshly created database meets the invariants the store's lemmas
      assume. */
  lemma EmptyDbValid()
    ensures Valid(EmptyDb) && AnswersOwnOptions(EmptyDb)
  {
  }

  /** `poll.answer_options`: the options of a poll, id to label. */
  function OptionsOf(db: Db, pid: PollId): (m: map<AnswerId, string>)
    ensures forall a :: a in m <==> a in db.options && db.options[a].pollId == pid
    ensures forall a :: a in m ==> m[a] == db.options[a].text
  {
    map a | a in db.options && db.options[a].pollId == pid :: db.options[a].text
  }

  /** No poll moves back in its lifecycle, no poll disappears and no poll
      changes its label or its options. */
  predicate Evolves(db: Db, db': Db)
  {
    && (forall p :: p in db.polls ==>
          && p in db'.polls
          && db'.polls[p].title == db.polls[p].title
          && Rank(db.polls[p].state) <= Rank(db'.polls[p].state))
    && (forall a :: a in db.options ==> a in db'.options && db'.options[a] == db.options[a])
  }

  /** `get_poll_by_id`. */
  function GetPollById(db: Db, pid: PollId): (r: Option<Poll>)
    ensures r.Some? <==> pid in db.polls
    ensures r.Some? ==> r.value == db.polls[pid]
  {
    if pid in db.polls then Some(db.polls[pid]) else None
  }

  /** `get_polls`: the ids of the polls in a given state (the query has no
      ORDER BY, so the model promises no order). */
  function GetPolls(db: Db, s: PollState): (r: set<PollId>)
    ensures forall p :: p in r <==> p in db.polls && db.polls[p].state == s
  {
    set p | p in db.polls && db.polls[p].state == s
  }

  /** Every poll is listed under exactly one state. */
  lemma GetPollsPartition(db: Db)
    ensures GetPolls(db, Prepared) + GetPolls(db, Active) + GetPolls(db, Closed) == db.polls.Keys
    ensures GetPolls(db, Prepared) !! GetPolls(db, Active)
    ensures GetPolls(db, Active) !! GetPolls(db, Closed)
    ensures GetPolls(db, Prepared) !! GetPolls(db, Closed)
  {
  }

  /** Result of `add_poll`: the new store and the new poll's id. */
  datatype Added = Added(db: Db, pollId: PollId)

  /** The answer options `add_poll` creates: the i-th label gets id
      `first + i`. */
  function NewOptions(pid: PollId, first: AnswerId, labels: seq<string>): (m: map<AnswerId, AnswerOption>)
    ensures forall a :: a in m <==> first <= a < first + |labels|
    ensures forall a :: a in m ==> m[a] == AnswerOption(pid, labels[a - first])
    ensures |m| == |labels|
  {
    var ids := IdRange(first, first + |labels|);
    var m := map a | a in ids :: AnswerOption(pid, labels[a - first]);
    assert m.Keys == ids;
    m
  }

  /** The options with ids from `first` on carry `labels`, in order, for
      poll `pid`. */
  predicate HoldsOptions(db: Db, pid: PollId, first: AnswerId, labels: seq<string>)
  {
    forall i :: 0 <= i < |labels| ==>
      first + i in db.options && db.options[first + i] == AnswerOption(pid, labels[i])
  }

  /** `add_poll` (ballot-box/db.py:90-98): a new poll in state prepared with
      one option per label, ids following the input order. */
  function AddPoll(db: Db, title: string, labels: seq<string>): (r: Added)
    ensures r.pollId in r.db.polls && r.db.polls[r.pollId] == Poll(title, Prepared)
    ensures forall i :: 0 <= i < |labels| ==>
              var a := db.nextAnswerId + i;
              a in r.db.options && r.db.options[a] == AnswerOption(r.pollId, labels[i])
    ensures HoldsOptions(r.db, r.pollId, db.nextAnswerId, labels)
    ensures r.db.votes == db.votes
  {
    var pid := db.nextPollId;
    var db' := db.(
      polls := db.polls[pid := Poll(title, Prepared)],
      options := db.options + NewOptions(pid, db.nextAnswerId, labels),
      nextPollId := pid + 1,
      nextAnswerId := db.nextAnswerId + |labels|);
    Added(db', pid)
  }

  /** On a consistent store `add_poll` takes a fresh poll id, gives the poll
      exactly one option per label, touches no existing poll or option, and
      keeps the store consistent. */
  lemma AddPollKeepsValid(db: Db, title: string, labels: seq<string>)
    requires Valid(db)
    ensures var r := AddPoll(db, title, labels);
            && r.pollId !in db.polls
            && (forall a :: a in OptionsOf(r.db, r.pollId) <==>
                  db.nextAnswerId <= a < db.nextAnswerId + |labels|)
            && |OptionsOf(r.db, r.pollId)| == |labels|
            && (forall p :: p in db.polls ==> p in r.db.polls && r.db.polls[p] == db.polls[p])
            && Valid(r.db) && Evolves(db, r.db)
            && (AnswersOwnOptions(db) ==> AnswersOwnOptions(r.db))
  {
    AddPollConsistent(db, title, labels);
    AddPollNewPollOptions(db, title, labels);
  }

  /** `add_poll` takes a fresh poll id, keeps every existing poll and the
      store's consistency, and only extends the store. */
  lemma AddPollConsistent(db: Db, title: string, labels: seq<string>)
    requires Valid(db)
    ensures var r := AddPoll(db, title, labels);
            && r.pollId !in db.polls
            && (forall p :: p in db.polls ==> p in r.db.polls && r.db.polls[p] == db.polls[p])
            && Valid(r.db) && Evolves(db, r.db)
            && (AnswersOwnOptions(db) ==> AnswersOwnOptions(r.db))
  {
    var r := AddPoll(db, title, labels);
    AddPollFrame(db, title, labels);
    InsertPollKeepsValid(db, r.db, r.pollId, title);
  }

  /** The new poll's options are exactly the fresh answer ids. */
  lemma AddPollNewPollOptions(db: Db, title: string, labels: seq<string>)
    requires Valid(db)
    ensures var r := AddPoll(db, title, labels);
            && (forall a :: a in OptionsOf(r.db, r.pollId) <==>
                  db.nextAnswerId <= a < db.nextAnswerId + |labels|)
            && |OptionsOf(r.db, r.pollId)| == |labels|
  {
    var r := AddPoll(db, title, labels);
    var m := OptionsOf(r.db, r.pollId);
    var ids := IdRange(db.nextAnswerId, db.nextAnswerId + |labels|);
    AddPollFrame(db, title, labels);
    assert forall a :: a in db.options ==> a < db.nextAnswerId && db.options[a].pollId in db.polls;
    assert forall a :: a in m <==> a in ids;
    assert m.Keys == ids;
  }

  /** Inserting a prepared poll under a fresh poll id, together with new
      options of that poll under fresh answer ids, and touching nothing else,
      keeps the store consistent and only extends it. */
  lemma InsertPollKeepsValid(db: Db, db': Db, pid: PollId, title: string)
    requires Valid(db) && pid !in db.polls
    requires db'.polls == db.polls[pid := Poll(title, Prepared)]
    requires pid < db'.nextPollId && db.nextPollId <= db'.nextPollId
    requires db.nextAnswerId <= db'.nextAnswerId
    requires db'.votes == db.votes
    requires forall a :: a in db.options ==> a in db'.options && db'.options[a] == db.options[a]
    requires forall a :: a in db'.options && a !in db.options ==>
               a < db'.nextAnswerId && db'.options[a].pollId == pid
    ensures Valid(db') && Evolves(db, db')
    ensures AnswersOwnOptions(db) ==> AnswersOwnOptions(db')
  {
  }

  /** On a consistent store `add_poll` inserts one poll row and the new
      option rows and nothing else: every other poll and every existing
      option keeps its row, and the option ids grow by exactly the fresh
      range. */
  lemma AddPollFrame(db: Db, title: string, labels: seq<string>)
    requires Valid(db)
    ensures var r := AddPoll(db, title, labels);
            && r.pollId !in db.polls && r.pollId < r.db.nextPollId
            && db.nextPollId <= r.db.nextPollId && db.nextAnswerId + |labels| == r.db.nextAnswerId
            && r.db.polls == db.polls[r.pollId := Poll(title, Prepared)]
            && (forall a :: a in r.db.options <==>
                  a in db.options || db.nextAnswerId <= a < db.nextAnswerId + |labels|)
            && (forall a :: a in db.options ==> r.db.options[a] == db.options[a])
            && (forall a :: a in r.db.options && a !in db.options ==>
                  db.nextAnswerId <= a < r.db.nextAnswerId && r.db.options[a].pollId == r.pollId)
  {
    var r := AddPoll(db, title, labels);
    assert r.db.options == db.options + NewOptions(r.pollId, db.nextAnswerId, labels);
    assert forall a :: a in db.options ==> a < db.nextAnswerId;
    MergeFresh(db.options, r.pollId, db.nextAnswerId, labels);
  }

  /** Merging new options under ids at or above every existing one: the old
      rows stay, and every other row is a new option of poll `pid`. */
  lemma MergeFresh(options: map<AnswerId, AnswerOption>, pid: PollId, first: AnswerId, labels: seq<string>)
    requires forall a :: a in options ==> a < first
    ensures forall a :: a in options + NewOptions(pid, first, labels) <==>
              a in options || first <= a < first + |labels|
    ensures forall a :: a in options ==> (options + NewOptions(pid, first, labels))[a] == options[a]
    ensures forall a :: a in options + NewOptions(pid, first, labels) && a !in options ==>
              first <= a < first + |labels| && (options + NewOptions(pid, first, labels))[a].pollId == pid
  {
    var added := NewOptions(pid, first, labels);
    assert forall a :: a in options ==> a !in added;
  }

  /** On a consistent store the options of the new poll are exactly the
      labels, the i-th label under the i-th fresh answer id. */
  lemma AddPollOptionsInOrder(db: Db, title: string, labels: seq<string>)
    requires Valid(db)
    ensures var r := AddPoll(db, title, labels);
            forall a :: a in OptionsOf(r.db, r.pollId) ==>
              && db.nextAnswerId <= a < db.nextAnswerId + |labels|
              && OptionsOf(r.db, r.pollId)[a] == labels[a - db.nextAnswerId]
  {
    var r := AddPoll(db, title, labels);
    AddPollFrame(db, title, labels);
    assert forall a :: a in db.options ==> db.options[a].pollId in db.polls;
    forall a | a in OptionsOf(r.db, r.pollId)
      ensures OptionsOf(r.db, r.pollId)[a] == labels[a - db.nextAnswerId]
    {
      var i := a - db.nextAnswerId;
      assert db.nextAnswerId + i == a;
    }
  }

  /** The ids from `lo` up to but excluding `hi`. */
  function IdRange(lo: nat, hi: nat): (r: set<nat>)
    ensures forall a :: a in r <==> lo <= a < hi
    ensures |r| == if lo <= hi then hi - lo else 0
    decreases hi - lo
  {
    if hi <= lo then {} else {lo} + IdRange(lo + 1, hi)
  }

  /** What `activate_poll` achieved: it returned true, it returned false,
      or the commit failed because two vote rows would share a key. */
  datatype Activation = Activated | NotActivated | DuplicateToken

  /** The vote rows that activation adds, all unanswered. */
  function BlankVotes(pid: PollId, tokens: seq<Token>): (m: map<(PollId, Token), Option<AnswerId>>)
    ensures forall k :: k in m <==> k.0 == pid && k.1 in tokens
    ensures forall k :: k in m ==> m[k] == None
  {
    map k | k in KeysFor(pid, tokens) :: None
  }

  /** The vote-table keys of the given tokens for one poll. */
  function KeysFor(pid: PollId, tokens: seq<Token>): (ks: set<(PollId, Token)>)
    ensures forall k :: k in ks <==> k.0 == pid && k.1 in tokens
  {
    set t | t in tokens :: (pid, t)
  }

  /** `activate_poll` (ballot-box/db.py:100-107). */
  function ActivatePoll(db: Db, pid: PollId, tokens: seq<Token>): (r: (Db, Activation))
    ensures pid !in db.polls || db.polls[pid].state != Prepared ==> r == (db, NotActivated)
    ensures r.1 != Activated ==> r.0 == db
    ensures pid in db.polls && db.polls[pid].state == Prepared && r.1 != Activated ==> r.1 == DuplicateToken
    ensures r.1 == Activated <==>
              pid in db.polls && db.polls[pid].state == Prepared && Distinct(tokens) &&
              forall t :: t in tokens ==> (pid, t) !in db.votes
    ensures r.1 == Activated ==>
              && r.0.polls == db.polls[pid := db.polls[pid].(state := Active)]
              && r.0.options == db.options
              && (forall t :: t in tokens ==> (pid, t) in r.0.votes && r.0.votes[(pid, t)] == None)
              && (forall k :: k in db.votes ==> k in r.0.votes && r.0.votes[k] == db.votes[k])
              && (forall k :: k in r.0.votes && k !in db.votes ==> k.0 == pid && k.1 in tokens)
    ensures r.1 == Activated && Valid(db) ==>
              forall t :: (pid, t) in r.0.votes <==> t in tokens
    ensures Valid(db) ==> Valid(r.0) && Evolves(db, r.0)
    ensures AnswersOwnOptions(db) ==> AnswersOwnOptions(r.0)
  {
    if pid !in db.polls || db.polls[pid].state != Prepared then (db, NotActivated)
    // The vote rows are inserted at commit; a token listed twice (or already
    // holding a row) violates the primary key and the transaction rolls back.
    else if !Distinct(tokens) || exists t :: t in tokens && (pid, t) in db.votes then (db, DuplicateToken)
    else
      var db' := db.(
        polls := db.polls[pid := db.polls[pid].(state := Active)],
        votes := db.votes + BlankVotes(pid, tokens));
      (db', Activated)
  }

  /** `close_poll` (ballot-box/db.py:109-111): the poll must exist (the
      source dereferences the missing poll otherwise). */
  function ClosePoll(db: Db, pid: PollId): (db': Db)
    requires pid in db.polls
    ensures pid in db'.polls && db'.polls[pid].state == Closed && db'.polls[pid].title == db.polls[pid].title
    ensures forall p :: p in db.polls && p != pid ==> p in db'.polls && db'.polls[p] == db.polls[p]
    ensures db'.polls.Keys == db.polls.Keys
    ensures db'.options == db.options && db'.votes == db.votes
    ensures Valid(db) ==> Valid(db') && Evolves(db, db')
    ensures AnswersOwnOptions(db) ==> AnswersOwnOptions(db')
  {
    db.(polls := db.polls[pid := db.polls[pid].(state := Closed)])
  }

  /** Closing a closed poll changes nothing. */
  lemma ClosePollIdempotent(db: Db, pid: PollId)
    requires pid in db.polls
    ensures ClosePoll(ClosePoll(db, pid), pid) == ClosePoll(db, pid)
    ensures db.polls[pid].state == Closed ==> ClosePoll(db, pid) == db
  {
  }

  /** A poll is activated at most once: after activation, activating again
      is refused whatever the tokens. */
  lemma NoReactivation(db: Db, pid: PollId, tokens: seq<Token>, more: seq<Token>)
    requires ActivatePoll(db, pid, tokens).1 == Activated
    ensures ActivatePoll(ActivatePoll(db, pid, tokens).0, pid, more).1 == NotActivated
    ensures ActivatePoll(ClosePoll(db, pid), pid, more).1 == NotActivated
  {
  }

  /** `get_vote`: the one vote a token holds for a poll, if any. */
  function GetVote(db: Db, pid: PollId, token: Token): (r: Option<Vote>)
    ensures r.Some? <==> (pid, token) in db.votes
    ensures r.Some? ==> r.value == Vote(pid, token, db.votes[(pid, token)])
  {
    if (pid, token) in db.votes then Some(Vote(pid, token, db.votes[(pid, token)])) else None
  }

  /** `get_votes`: all votes of a poll; no two of them share a token. */
  function GetVotes(db: Db, pid: PollId): (r: set<Vote>)
    ensures forall v :: v in r ==> v.pollId == pid && GetVote(db, pid, v.token) == Some(v)
    ensures forall t :: (pid, t) in db.votes ==> GetVote(db, pid, t).value in r
    ensures forall v, w :: v in r && w in r && v.token == w.token ==> v == w
  {
    set k | k in db.votes && k.0 == pid :: Vote(k.0, k.1, db.votes[k])
  }

  /** After activation every listed token holds one blank vote. */
  lemma ActivatedTokensHoldBlankVotes(db: Db, pid: PollId, tokens: seq<Token>, t: Token)
    requires ActivatePoll(db, pid, tokens).1 == Activated
    requires t in tokens
    ensures GetVote(ActivatePoll(db, pid, tokens).0, pid, t) == Some(Vote(pid, t, None))
  {
  }

  // ---------------------------------------------------------------------
  // Tally

  /** One row of `get_results`, keyed by its answer id: the option's label
      (NULL for the row of tokens that have not voted) and the count. */
  datatype ResultRow = ResultRow(text: Option<string>, count: nat)

  /** The keys of a poll's vote rows. */
  function PollVoteKeys(db: Db, pid: PollId): set<(PollId, Token)>
  {
    set k | k in db.votes && k.0 == pid
  }

  /** The poll's votes whose answer is `a` (`None`: not yet voted). */
  function VotesFor(db: Db, pid: PollId, a: Option<AnswerId>): set<(PollId, Token)>
  {
    set k | k in db.votes && k.0 == pid && db.votes[k] == a
  }

  /** The label the outer join attaches to an answer id. */
  function AnswerLabel(db: Db, a: Option<AnswerId>): (l: Option<string>)
    ensures l.Some? <==> a.Some? && a.value in db.options
  {
    if a.Some? && a.value in db.options then Some(db.options[a.value].text) else None
  }

  /** Some vote row, of any poll, holds this answer. */
  predicate Referenced(db: Db, a: AnswerId)
  {
    exists k :: k in db.votes && db.votes[k] == Some(a)
  }

  /** `get_results` (ballot-box/db.py:119-127), the union of
      q1: one row per answer id among the poll's votes (NULL included), with
          the number of those votes, outer-joined to the option's label;
      q2: one row with count 0 per option of the poll that no vote row at all
          references (the outer join from answer_option to vote matches on
          the answer id alone, the only foreign key between the two tables).
      The two parts have disjoint answer ids, so the union is a map. */
  function GetResults(db: Db, pid: PollId): (r: map<Option<AnswerId>, ResultRow>)
    ensures forall a :: a in r ==> r[a].count == |VotesFor(db, pid, a)|
    ensures forall a :: a in r ==> r[a].text == AnswerLabel(db, a)
    ensures forall k :: k in PollVoteKeys(db, pid) ==> db.votes[k] in r
    ensures forall a :: a in r ==>
              |VotesFor(db, pid, a)| > 0 ||
              (a.Some? && a.value in db.options && db.options[a.value].pollId == pid && !Referenced(db, a.value))
    ensures forall a :: a in db.options && db.options[a].pollId == pid && !Referenced(db, a) ==>
              Some(a) in r && r[Some(a)].count == 0
  {
    var voted := set k | k in db.votes && k.0 == pid :: db.votes[k];
    var q1 := map a | a in voted :: ResultRow(AnswerLabel(db, a), |VotesFor(db, pid, a)|);
    var unvoted := set a | a in db.options && db.options[a].pollId == pid && !Referenced(db, a) :: Some(a);
    var q2 := map a | a in unvoted :: ResultRow(AnswerLabel(db, a), 0);
    assert forall a :: a in q1 ==> |VotesFor(db, pid, a)| > 0 by {
      forall a | a in q1 ensures |VotesFor(db, pid, a)| > 0 {
        var k :| k in db.votes && k.0 == pid && db.votes[k] == a;
        assert k in VotesFor(db, pid, a);
      }
    }
    assert forall a :: a in q2 ==> VotesFor(db, pid, a) == {};
    q1 + q2
  }

  /** Picks some key of a non-empty map. */
  ghost function PickKey<K, V>(m: map<K, V>): (k: K)
    requires m != map[]
    ensures k in m
  {
    assert exists k :: k in m by {
      assert m.Keys != {};
      var k :| k in m.Keys;
    }
    var k :| k in m; k
  }

  /** The sum of the counts of a result map. */
  ghost function Total(r: map<Option<AnswerId>, ResultRow>): nat
    decreases |r|
  {
    if r == map[] then 0
    else
      var a := PickKey(r);
      r[a].count + Total(r - {a})
  }

  /** Counts that are exact per answer id add up to the number of votes
      whose answer is among the keys. */
  lemma {:induction false} TotalCountsVotes(db: Db, pid: PollId, r: map<Option<AnswerId>, ResultRow>)
    requires forall a :: a in r ==> r[a].count == |VotesFor(db, pid, a)|
    ensures Total(r) == |set k | k in db.votes && k.0 == pid && db.votes[k] in r|
    decreases |r|
  {
    if r != map[] {
      var a := PickKey(r);
      var r' := r - {a};
      assert |r'| < |r| by { assert r'.Keys == r.Keys - {a}; }
      TotalCountsVotes(db, pid, r');
      assert Total(r) == r[a].count + Total(r');
      VotesSplit(db, pid, r, a);
    }
  }

  /** The votes whose answer is a key of `r` are those of answer `a` plus,
      disjointly, those whose answer is another key. */
  lemma VotesSplit(db: Db, pid: PollId, r: map<Option<AnswerId>, ResultRow>, a: Option<AnswerId>)
    requires a in r
    ensures var all := set k | k in db.votes && k.0 == pid && db.votes[k] in r;
            var rest := set k | k in db.votes && k.0 == pid && db.votes[k] in r - {a};
            |all| == |rest| + |VotesFor(db, pid, a)|
  {
    var all := set k | k in db.votes && k.0 == pid && db.votes[k] in r;
    var rest := set k | k in db.votes && k.0 == pid && db.votes[k] in r - {a};
    assert all == rest + VotesFor(db, pid, a);
    assert rest !! VotesFor(db, pid, a);
  }

  /** The counts of `get_results` sum to the number of the poll's votes. */
  lemma ResultsCountEveryVote(db: Db, pid: PollId)
    ensures Total(GetResults(db, pid)) == |PollVoteKeys(db, pid)|
  {
    var r := GetResults(db, pid);
    TotalCountsVotes(db, pid, r);
    assert (set k | k in db.votes && k.0 == pid && db.votes[k] in r) == PollVoteKeys(db, pid);
  }

  /** When every answer belongs to its own poll, `get_results` lists every
      option of the poll, with its label, zero-count options included, and
      lists no option of another poll. */
  lemma ResultsCoverOptions(db: Db, pid: PollId)
    requires AnswersOwnOptions(db)
    ensures forall a :: a in OptionsOf(db, pid) ==>
              Some(a) in GetResults(db, pid) && GetResults(db, pid)[Some(a)].text == Some(OptionsOf(db, pid)[a])
    ensures forall a :: Some(a) in GetResults(db, pid) ==> a in OptionsOf(db, pid)
  {
    var r := GetResults(db, pid);
    forall a | a in OptionsOf(db, pid)
      ensures Some(a) in r
    {
      if Referenced(db, a) {
        var k :| k in db.votes && db.votes[k] == Some(a);
        assert k in PollVoteKeys(db, pid);
      }
    }
    forall a | Some(a) in r ensures a in OptionsOf(db, pid) {
      if |VotesFor(db, pid, Some(a))| > 0 {
        var k :| k in VotesFor(db, pid, Some(a));
      }
    }
  }

  /** Before anyone votes every option of the poll is listed with count 0. */
  lemma NoVotesCountZero(db: Db, pid: PollId)
    requires AnswersOwnOptions(db)
    requires forall k :: k in PollVoteKeys(db, pid) ==> db.votes[k] == None
    ensures forall a :: a in OptionsOf(db, pid) ==>
              Some(a) in GetResults(db, pid) && GetResults(db, pid)[Some(a)].count == 0
  {
    ResultsCoverOptions(db, pid);
    assert forall a :: a in OptionsOf(db, pid) ==> VotesFor(db, pid, Some(a)) == {};
  }
}

=== FILE: prototype.dfy ===
/** The early prototype of the registration front end (the repository's root
    app.py): module-level lists of registered names, of per-registrant room
    tokens and of minted tokens, and a flag saying whether registration is
    open. Each Socket.IO handler is a pure transition; what it emits is
    returned as its reply.

    The handler `voting_reset` keeps the room list (app.py:52-57), so rooms
    of a discarded round survive into the next one. `Reset` models that as
    written and `ResetKeepsStaleRooms` exhibits the consequence;
    `ResetClearingRooms` is the corrected handler. Runs are modelled both
    ways: `RunAsWritten` with the source's reset, which keeps `Valid`, and
    `Run` with the corrected one, which also keeps `Balanced`. */
module Prototype {
  import opened Ordering
  import opened Tokens

  datatype State = State(
    usernames: seq<string>,
    rooms: seq<string>,
    tokens: seq<string>,
    active: bool)

  /** The state at process start: registration open, all lists empty. */
  const InitialState: State := State([], [], [], true)

  /** The new state together with what the handler emitted. */
  datatype Outcome<R> = Outcome(state: State, reply: R)

  /** `register_response`/`register_broadcast`, together with the room the
      registering session joined; `RegisterIgnored` when registration is
      closed (the handler returns without emitting). */
  datatype RegisterReply =
    | RegisterIgnored
    | Registered(name: string, allUsers: seq<string>, room: string)

  /** One `generated_token` message, sent to a room. */
  datatype TokenDelivery = TokenDelivery(room: string, token: string)

  /** `voting_end_response` with the token messages; `EndIgnored` when
      registration was already closed. */
  datatype EndReply =
    | EndIgnored
    | Ended(allUsers: seq<string>, allTokens: seq<string>, deliveries: seq<TokenDelivery>)

  /** The prototype's invariant: rooms are sorted and duplicate-free, no
      minted token lingers while registration is open, and no room lingers
      once it is closed. */
  predicate Valid(s: State)
  {
    && Sorted(s.rooms)
    && Distinct(s.rooms)
    && (s.active ==> s.tokens == [])
    && (!s.active ==> s.rooms == [])
  }

  /** While registration is open there is one room per registered name. */
  predicate Balanced(s: State)
  {
    s.active ==> |s.rooms| == |s.usernames|
  }

  /** The random source eventually yields a token that is not yet a room. */
  predicate HasFreshDraw(draws: seq<string>, rooms: seq<string>)
  {
    exists k :: 0 <= k < |draws| && draws[k] !in rooms
  }

  /** The position at which the re-draw loop `while token in registered_rooms`
      (app.py:38-40) stops. */
  function FirstFresh(draws: seq<string>, rooms: seq<string>): (i: nat)
    requires HasFreshDraw(draws, rooms)
    ensures i < |draws| && draws[i] !in rooms
    ensures forall k :: 0 <= k < i ==> draws[k] in rooms
    decreases |draws|
  {
    if draws[0] !in rooms then 0
    else
      assert HasFreshDraw(draws[1..], rooms) by {
        var k :| 0 <= k < |draws| && draws[k] !in rooms;
        assert draws[1..][k - 1] == draws[k];
      }
      1 + FirstFresh(draws[1..], rooms)
  }

  /** A participant registers under a name (app.py:32-49). `draws` are the
      successive values of `generate_token`. */
  function Register(s: State, name: string, draws: seq<string>): (o: Outcome<RegisterReply>)
    requires forall k :: 0 <= k < |draws| ==> IsToken(draws[k], RoomTokenLength)
    requires s.active ==> HasFreshDraw(draws, s.rooms)
    ensures !s.active ==> o == Outcome(s, RegisterIgnored)
    ensures s.active ==>
              && o.reply.Registered?
              && o.reply.name == name
              && o.reply.room == draws[FirstFresh(draws, s.rooms)]
              && o.state.usernames == s.usernames + [name]
              && o.reply.allUsers == o.state.usernames
              && IsToken(o.reply.room, RoomTokenLength)
              && o.reply.room !in s.rooms
              && o.reply.room in draws
              && Sorted(o.state.rooms)
              && multiset(o.state.rooms) == multiset(s.rooms) + multiset{o.reply.room}
              && (Distinct(s.rooms) ==> Distinct(o.state.rooms))
              && o.state.tokens == s.tokens && o.state.active
  {
    if !s.active then Outcome(s, RegisterIgnored)
    else
      // No check on the name: the same name may be registered many times.
      var room := draws[FirstFresh(draws, s.rooms)];
      assert Distinct(s.rooms) ==> Distinct(Sort(s.rooms + [room])) by {
        if Distinct(s.rooms) { SortFreshKeepsDistinct(s.rooms, room); }
      }
      var s' := s.(usernames := s.usernames + [name], rooms := Sort(s.rooms + [room]));
      Outcome(s', Registered(name, s'.usernames, room))
  }

  /** `voting_reset` as written (app.py:52-60): reopens registration and
      empties the names and the minted tokens, but keeps the rooms. */
  function Reset(s: State): (s': State)
    ensures s'.active && s'.usernames == [] && s'.tokens == []
    ensures s'.rooms == s.rooms
    ensures Valid(s) ==> Valid(s')
  {
    s.(active := true, usernames := [], tokens := [])
  }

  /** `voting_reset` as evidently intended: the rooms of the discarded round
      are emptied along with the names. */
  function ResetClearingRooms(s: State): (s': State)
    ensures s'.active && s'.usernames == [] && s'.tokens == [] && s'.rooms == []
    ensures Valid(s') && Balanced(s')
  {
    s.(active := true, usernames := [], tokens := [], rooms := [])
  }

  /** The token messages: the i-th room receives the i-th drawn token. */
  function Deliveries(rooms: seq<string>, draws: seq<string>): (d: seq<TokenDelivery>)
    requires |draws| == |rooms|
    ensures |d| == |rooms|
    ensures forall i :: 0 <= i < |rooms| ==> d[i].room == rooms[i] && d[i].token == draws[i]
  {
    seq(|rooms|, i requires 0 <= i < |rooms| => TokenDelivery(rooms[i], draws[i]))
  }

  /** Registration closes and one token is minted per room (app.py:63-80).
      `draws` are the values of `generate_token`, one per room. */
  function End(s: State, draws: seq<string>): (o: Outcome<EndReply>)
    requires |draws| == |s.rooms|
    requires forall k :: 0 <= k < |draws| ==> IsToken(draws[k], RoomTokenLength)
    ensures !s.active ==> o == Outcome(s, EndIgnored)
    ensures s.active ==>
              && o.reply.Ended?
              && !o.state.active && o.state.rooms == []
              && o.state.usernames == s.usernames
              && (Sorted(s.tokens) || draws != [] ==> Sorted(o.state.tokens))
              && multiset(o.state.tokens) == multiset(s.tokens) + multiset(draws)
              && o.reply.allUsers == s.usernames
              && o.reply.allTokens == o.state.tokens
              && |o.reply.deliveries| == |s.rooms|
              && (forall i :: 0 <= i < |s.rooms| ==>
                    o.reply.deliveries[i] == TokenDelivery(s.rooms[i], draws[i]))
    ensures Valid(s) && s.active ==> |o.reply.allTokens| == |s.rooms|
    ensures Valid(s) ==> Valid(o.state)
  {
    if !s.active then Outcome(s, EndIgnored)
    else
      var tokens := AppendEachSorted(s.tokens, draws);
      var s' := s.(active := false, tokens := tokens, rooms := []);
      Outcome(s', Ended(s'.usernames, s'.tokens, Deliveries(s.rooms, draws)))
  }

  /** Under the as-written reset, a registrant of a discarded round still
      gets a token at the end of the next one although no name is listed:
      after register, reset and end, `all_users` is empty while `all_tokens`
      holds one token per stale room. */
  lemma ResetKeepsStaleRooms(s: State, name: string, draws: seq<string>, endDraws: seq<string>)
    requires Valid(s) && s.active
    requires forall k :: 0 <= k < |draws| ==> IsToken(draws[k], RoomTokenLength)
    requires HasFreshDraw(draws, s.rooms)
    requires |endDraws| == |s.rooms| + 1
    requires forall k :: 0 <= k < |endDraws| ==> IsToken(endDraws[k], RoomTokenLength)
    ensures var s1 := Reset(Register(s, name, draws).state);
            && |s1.rooms| == |s.rooms| + 1
            && End(s1, endDraws).reply.allUsers == []
            && |End(s1, endDraws).reply.allTokens| == |s.rooms| + 1
  {
  }

  /** With the corrected reset, the same sequence mints no token for a
      discarded registrant. */
  lemma ResetClearingRoomsMintsNone(s: State, name: string, draws: seq<string>)
    requires s.active
    requires forall k :: 0 <= k < |draws| ==> IsToken(draws[k], RoomTokenLength)
    requires HasFreshDraw(draws, s.rooms)
    ensures var s1 := ResetClearingRooms(Register(s, name, draws).state);
            End(s1, []).reply == Ended([], [], [])
  {
  }

  // ---------------------------------------------------------------------
  // Runs of handlers, with the corrected reset (for `Balanced`)

  datatype Event =
    | RegisterEvent(name: string, draws: seq<string>)
    | ResetEvent
    | EndEvent(draws: seq<string>)

  /** The random draws of an event have the shape `generate_token` produces,
      and the re-draw loop eventually finds a fresh room token. */
  predicate DrawsFit(s: State, e: Event)
  {
    match e
    case RegisterEvent(_, draws) =>
      (forall k :: 0 <= k < |draws| ==> IsToken(draws[k], RoomTokenLength)) &&
      (s.active ==> HasFreshDraw(draws, s.rooms))
    case ResetEvent => true
    case EndEvent(draws) =>
      |draws| == |s.rooms| &&
      forall k :: 0 <= k < |draws| ==> IsToken(draws[k], RoomTokenLength)
  }

  function Step(s: State, e: Event): State
    requires DrawsFit(s, e)
  {
    match e
    case RegisterEvent(name, draws) => Register(s, name, draws).state
    case ResetEvent => ResetClearingRooms(s)
    case EndEvent(draws) => End(s, draws).state
  }

  predicate RunFits(s: State, es: seq<Event>)
    decreases |es|
  {
    es == [] || (DrawsFit(s, es[0]) && RunFits(Step(s, es[0]), es[1..]))
  }

  function Run(s: State, es: seq<Event>): State
    requires RunFits(s, es)
    decreases |es|
  {
    if es == [] then s else Run(Step(s, es[0]), es[1..])
  }

  /** Every handler keeps both invariants. */
  lemma StepKeepsValid(s: State, e: Event)
    requires Valid(s) && Balanced(s) && DrawsFit(s, e)
    ensures Valid(Step(s, e)) && Balanced(Step(s, e))
  {
  }

  /** From any state meeting both invariants, every run with the corrected
      reset keeps rooms sorted and duplicate-free, minted tokens empty while
      registration is open, and one room per registered name. */
  lemma {:induction false} RunKeepsValid(s: State, es: seq<Event>)
    requires Valid(s) && Balanced(s) && RunFits(s, es)
    ensures Valid(Run(s, es)) && Balanced(Run(s, es))
    ensures Run(s, es).active ==> Run(s, es).tokens == []
    decreases |es|
  {
    if es != [] {
      StepKeepsValid(s, es[0]);
      RunKeepsValid(Step(s, es[0]), es[1..]);
    }
  }

  // ---------------------------------------------------------------------
  // Runs of handlers as written

  /** One handler as written: the same handlers, with the reset that keeps
      the rooms. */
  function StepAsWritten(s: State, e: Event): State
    requires DrawsFit(s, e)
  {
    match e
    case RegisterEvent(name, draws) => Register(s, name, draws).state
    case ResetEvent => Reset(s)
    case EndEvent(draws) => End(s, draws).state
  }

  predicate RunFitsAsWritten(s: State, es: seq<Event>)
    decreases |es|
  {
    es == [] || (DrawsFit(s, es[0]) && RunFitsAsWritten(StepAsWritten(s, es[0]), es[1..]))
  }

  function RunAsWritten(s: State, es: seq<Event>): State
    requires RunFitsAsWritten(s, es)
    decreases |es|
  {
    if es == [] then s else RunAsWritten(StepAsWritten(s, es[0]), es[1..])
  }

  /** Every handler as written keeps `Valid` (not `Balanced`: the reset
      keeps rooms while emptying the names). */
  lemma StepAsWrittenKeepsValid(s: State, e: Event)
    requires Valid(s) && DrawsFit(s, e)
    ensures Valid(StepAsWritten(s, e))
  {
  }

  /** For the program as written, from any valid state, every run keeps
      rooms sorted and duplicate-free, no minted token lingers while
      registration is open, and no room lingers once it is closed. */
  lemma {:induction false} RunAsWrittenKeepsValid(s: State, es: seq<Event>)
    requires Valid(s) && RunFitsAsWritten(s, es)
    ensures Valid(RunAsWritten(s, es))
    ensures RunAsWritten(s, es).active ==> RunAsWritten(s, es).tokens == []
    decreases |es|
  {
    if es != [] {
      StepAsWrittenKeepsValid(s, es[0]);
      RunAsWrittenKeepsValid(StepAsWritten(s, es[0]), es[1..]);
    }
  }

  /** The published token list depends only on the tokens drawn, not on
      which room received which. */
  lemma EndTokensHideOrder(s: State, draws: seq<string>, other: seq<string>)
    requires Valid(s) && s.active
    requires |draws| == |s.rooms| && |other| == |s.rooms|
    requires forall k :: 0 <= k < |draws| ==> IsToken(draws[k], RoomTokenLength)
    requires forall k :: 0 <= k < |other| ==> IsToken(other[k], RoomTokenLength)
    requires multiset(other) == multiset(draws)
    ensures End(s, draws).reply.allTokens == End(s, other).reply.allTokens
  {
    SortedPermutationUnique(End(s, draws).reply.allTokens, End(s, other).reply.allTokens);
  }

  /** With the corrected reset (one room per name, `Balanced`), ending
      registration mints exactly one token per registered name. As written
      the reset breaks `Balanced`, see `ResetKeepsStaleRooms`. */
  lemma EndMintsOnePerName(s: State, draws: seq<string>)
    requires Valid(s) && Balanced(s) && s.active
    requires |draws| == |s.rooms|
    requires forall k :: 0 <= k < |draws| ==> IsToken(draws[k], RoomTokenLength)
    ensures |End(s, draws).reply.allTokens| == |End(s, draws).reply.allUsers|
  {
  }

  // ---------------------------------------------------------------------
  // Runs from process start

  /** Every run from process start, either way, keeps its invariants: the
      start state meets `Valid` and `Balanced`. */
  lemma RunsFromStartKeepValid(es: seq<Event>)
    ensures RunFits(InitialState, es) ==>
              Valid(Run(InitialState, es)) && Balanced(Run(InitialState, es))
    ensures RunFitsAsWritten(InitialState, es) ==> Valid(RunAsWritten(InitialState, es))
  {
    if RunFits(InitialState, es) {
      RunKeepsValid(InitialState, es);
    }
    if RunFitsAsWritten(InitialState, es) {
      RunAsWrittenKeepsValid(InitialState, es);
    }
  }
}

=== FILE: registration.dfy ===
/** The registration front end of vote-registration/app.py: one process-wide
    registration round, the maps from Socket.IO session ids to the identity
    that connected on them, the list of admin sessions, and the single-use
    login tokens that carry a SAML login into a live connection.

    Every Socket.IO handler is a pure transition from one `Server` value to
    the next; what the handler emits is returned as its reply instead of
    being sent. Each handler is one atomic step (the source's lock). */
module Registration {
  import opened Wrappers
  import opened Ordering
  import opened Tokens

  /** A Socket.IO session id (`request.sid`). */
  type SessionId = string

  /** `SamlReturnData`: who logged in and with which roles. */
  datatype Identity = Identity(
    userid: string,
    fullname: string,
    isVoting: bool,
    isAdmin: bool,
    isPresenter: bool)

  /** `VoteRegistrationData`: the three parallel registration lists plus the
      round's title and link. */
  datatype Round = Round(
    active: bool,
    fullnames: seq<string>,
    userids: seq<string>,
    sessionids: seq<SessionId>,
    title: string,
    link: string)

  /** All module-level state of the front end. */
  datatype Server = Server(
    round: Round,
    admins: seq<SessionId>,
    sessionUserids: map<SessionId, string>,
    sessionFullnames: map<SessionId, string>,
    sessionIsVoting: map<SessionId, bool>,
    loginSessions: map<string, Identity>)

  /** The state at process start: registration inactive, everything empty. */
  const InitialServer: Server :=
    Server(Round(false, [], [], [], "", ""), [], map[], map[], map[], map[])

  /** The new state together with what the handler emitted. */
  datatype Outcome<R> = Outcome(server: Server, reply: R)

  /** What `voting_register` emits. `Refused` and `Registered` are the
      `register_response` payloads with `successful` false and true (the
      latter also broadcasts the name and the registered full names);
      `Raised` is the `KeyError` of a session that has no identity on record,
      after which nothing is emitted. */
  datatype RegisterReply =
    | Refused
    | Registered(name: string, registeredFullnames: seq<string>)
    | Raised
  {
    /** The `successful` field of `register_response`. */
    predicate Successful() { Registered? }
  }

  /** `reset_broadcast`, with the title when the round was started with one;
      `ResetIgnored` when the caller is not an admin. */
  datatype ResetReply = ResetIgnored | ResetBroadcast(votingTitle: Option<string>)

  /** One `generated_token` message, sent privately to the room of a session. */
  datatype TokenDelivery = TokenDelivery(sid: SessionId, token: string, votingLink: string)

  /** `voting_end_response` together with the private token messages;
      `EndIgnored` when the caller is not an admin or the round is not active. */
  datatype EndReply =
    | EndIgnored
    | Ended(allUsers: seq<string>, allTokens: seq<string>, deliveries: seq<TokenDelivery>)

  /** `initial_status`; `LoginUnknown` is the `KeyError` of a login token
      that is not (or no longer) on record. */
  datatype ConnectReply =
    | LoginUnknown
    | InitialStatus(
        registrationActive: bool,
        registeredFullnames: seq<string>,
        alreadyRegistered: bool,
        votingTitle: string,
        fullname: string,
        adminState: bool)

  /** The round's invariant: the user-id list and the full-name list run in
      parallel, no user id is registered twice, the session ids are sorted,
      and while registration is active the session-id list runs in parallel
      with the other two; once it has ended the session ids are gone. */
  predicate ValidRound(r: Round)
  {
    && |r.fullnames| == |r.userids|
    && Distinct(r.userids)
    && Sorted(r.sessionids)
    && (r.active ==> |r.sessionids| == |r.userids|)
    && (!r.active ==> r.sessionids == [])
  }

  /** The session `sid` asks to register for the current round
      (vote-registration/app.py:169-193). */
  function Register(s: Server, sid: SessionId): (o: Outcome<RegisterReply>)
    ensures !s.round.active ==> o == Outcome(s, Refused)
    ensures (s.round.active && (sid !in s.sessionFullnames || sid !in s.sessionUserids))
              ==> o == Outcome(s, Raised)
    ensures (s.round.active && sid in s.sessionFullnames && sid in s.sessionUserids &&
             s.sessionUserids[sid] in s.round.userids) ==> o == Outcome(s, Refused)
    ensures o.reply.Successful() <==>
              && s.round.active
              && sid in s.sessionFullnames && sid in s.sessionUserids
              && s.sessionUserids[sid] !in s.round.userids
    ensures !o.reply.Successful() ==> o.server == s
    ensures o.reply.Successful() ==>
              var r, r' := s.round, o.server.round;
              && r'.fullnames == r.fullnames + [s.sessionFullnames[sid]]
              && r'.userids == r.userids + [s.sessionUserids[sid]]
              && Sorted(r'.sessionids)
              && multiset(r'.sessionids) == multiset(r.sessionids) + multiset{sid}
              && r'.active == r.active && r'.title == r.title && r'.link == r.link
              && sid !in o.server.sessionUserids && sid !in o.server.sessionFullnames
              && (forall x :: x in s.sessionUserids && x != sid ==>
                    x in o.server.sessionUserids && o.server.sessionUserids[x] == s.sessionUserids[x])
              && (forall x :: x in s.sessionFullnames && x != sid ==>
                    x in o.server.sessionFullnames && o.server.sessionFullnames[x] == s.sessionFullnames[x])
              && o.server.admins == s.admins && o.server.loginSessions == s.loginSessions
              && o.reply == Registered(s.sessionFullnames[sid], r'.fullnames)
    ensures o.reply.Successful() ==>
              o.server == s.(round := o.server.round,
                             sessionUserids := s.sessionUserids - {sid},
                             sessionFullnames := s.sessionFullnames - {sid})
    ensures ValidRound(s.round) ==> ValidRound(o.server.round)
  {
    if !s.round.active then Outcome(s, Refused)
    // The two dictionary lookups happen before the lock is taken; a session
    // that is not on record raises KeyError and nothing changes.
    else if sid !in s.sessionFullnames || sid !in s.sessionUserids then Outcome(s, Raised)
    else
      var fullname := s.sessionFullnames[sid];
      var userid := s.sessionUserids[sid];
      if userid in s.round.userids then Outcome(s, Refused)
      else
        var r := s.round.(
          fullnames := s.round.fullnames + [fullname],
          userids := s.round.userids + [userid],
          sessionids := Sort(s.round.sessionids + [sid]));
        assert ValidRound(s.round) ==> Distinct(r.userids) by {
          if ValidRound(s.round) {
            forall i, j | 0 <= i < j < |r.userids| ensures r.userids[i] != r.userids[j] {
              if j == |r.userids| - 1 {
                assert r.userids[i] in s.round.userids;
              }
            }
          }
        }
        Outcome(
          s.(round := r,
             sessionUserids := s.sessionUserids - {sid},
             sessionFullnames := s.sessionFullnames - {sid}),
          Registered(fullname, r.fullnames))
  }

  /** The round with its three registration lists emptied and registration
      open again; title and link are kept. */
  function Reopened(r: Round): (r': Round)
    ensures r'.active && r'.fullnames == [] && r'.userids == [] && r'.sessionids == []
    ensures r'.title == r.title && r'.link == r.link
    ensures ValidRound(r')
  {
    r.(active := true, fullnames := [], userids := [], sessionids := [])
  }

  /** An admin resets the round (vote-registration/app.py:196-207). */
  function Reset(s: Server, sid: SessionId): (o: Outcome<ResetReply>)
    ensures sid !in s.admins ==> o == Outcome(s, ResetIgnored)
    ensures sid in s.admins ==>
              var r' := o.server.round;
              && r'.active && r'.fullnames == [] && r'.userids == [] && r'.sessionids == []
              && r'.title == s.round.title && r'.link == s.round.link
              && o.server.(round := s.round) == s
              && o.reply == ResetBroadcast(None)
  {
    if sid !in s.admins then Outcome(s, ResetIgnored)
    else Outcome(s.(round := Reopened(s.round)), ResetBroadcast(None))
  }

  /** An admin starts a new round with a title and a link
      (vote-registration/app.py:210-223). */
  function Start(s: Server, sid: SessionId, title: string, link: string): (o: Outcome<ResetReply>)
    ensures sid !in s.admins ==> o == Outcome(s, ResetIgnored)
    ensures sid in s.admins ==>
              var r' := o.server.round;
              && r'.active && r'.fullnames == [] && r'.userids == [] && r'.sessionids == []
              && r'.title == title && r'.link == link
              && o.server.(round := s.round) == s
              && o.reply == ResetBroadcast(Some(title))
  {
    if sid !in s.admins then Outcome(s, ResetIgnored)
    else
      var r := Reopened(s.round).(title := title, link := link);
      Outcome(s.(round := r), ResetBroadcast(Some(r.title)))
  }

  /** The `generated_token` messages: the i-th registered session receives
      the i-th drawn token and the round's link. */
  function Deliveries(sids: seq<SessionId>, draws: seq<string>, link: string): (d: seq<TokenDelivery>)
    requires |draws| == |sids|
    ensures |d| == |sids|
    ensures forall i :: 0 <= i < |sids| ==> d[i].sid == sids[i] && d[i].token == draws[i] && d[i].votingLink == link
  {
    seq(|sids|, i requires 0 <= i < |sids| => TokenDelivery(sids[i], draws[i], link))
  }

  /** An admin ends the round (vote-registration/app.py:226-251). `draws` are
      the values of `generate_display_token`, one per registered session in
      list order. */
  function End(s: Server, sid: SessionId, draws: seq<string>): (o: Outcome<EndReply>)
    requires |draws| == |s.round.sessionids|
    requires forall i :: 0 <= i < |draws| ==> IsToken(draws[i], DisplayTokenLength)
    ensures sid !in s.admins || !s.round.active ==> o == Outcome(s, EndIgnored)
    ensures sid in s.admins && s.round.active ==>
              var r, r' := s.round, o.server.round;
              && o.reply.Ended?
              && !r'.active && r'.sessionids == []
              && r'.fullnames == r.fullnames && r'.userids == r.userids
              && r'.title == r.title && r'.link == r.link
              && o.server.(round := s.round) == s
              && o.reply.allUsers == r.fullnames
              && Sorted(o.reply.allTokens)
              && multiset(o.reply.allTokens) == multiset(draws)
              && (forall t :: t in o.reply.allTokens ==> IsToken(t, DisplayTokenLength))
              && |o.reply.deliveries| == |r.sessionids|
              && (forall i :: 0 <= i < |r.sessionids| ==>
                    o.reply.deliveries[i] == TokenDelivery(r.sessionids[i], draws[i], r.link))
    ensures ValidRound(s.round) ==> ValidRound(o.server.round)
  {
    if sid !in s.admins then Outcome(s, EndIgnored)
    else if !s.round.active then Outcome(s, EndIgnored)
    else
      var r := s.round.(active := false, sessionids := []);
      var tokens := AppendEachSorted([], draws);
      assert forall t :: t in tokens ==> IsToken(t, DisplayTokenLength) by {
        forall t | t in tokens ensures IsToken(t, DisplayTokenLength) {
          assert t in multiset(tokens);
          assert t in multiset(draws);
        }
      }
      Outcome(s.(round := r),
              Ended(r.fullnames, tokens, Deliveries(s.round.sessionids, draws, s.round.link)))
  }

  /** `acs` records a fresh login under a newly generated 50-character token
      (vote-registration/app.py:79, 105). */
  function Login(s: Server, token: string, who: Identity): (s': Server)
    requires IsToken(token, LoginTokenLength)
    ensures token in s'.loginSessions && s'.loginSessions[token] == who
    ensures forall t :: t in s.loginSessions && t != token ==>
              t in s'.loginSessions && s'.loginSessions[t] == s.loginSessions[t]
    ensures s'.loginSessions.Keys == s.loginSessions.Keys + {token}
    ensures s'.round == s.round && s'.admins == s.admins
    ensures s'.sessionUserids == s.sessionUserids && s'.sessionFullnames == s.sessionFullnames
    ensures s'.sessionIsVoting == s.sessionIsVoting
  {
    s.(loginSessions := s.loginSessions[token := who])
  }

  /** A client connects on session `sid` presenting a login token
      (vote-registration/app.py:254-279). */
  function Connect(s: Server, sid: SessionId, token: string): (o: Outcome<ConnectReply>)
    ensures token !in s.loginSessions ==> o == Outcome(s, LoginUnknown)
    ensures token in s.loginSessions ==>
              var who := s.loginSessions[token];
              && token !in o.server.loginSessions
              && o.server.loginSessions == s.loginSessions - {token}
              && o.server.round == s.round
              && o.server.admins == (if who.isAdmin then s.admins + [sid] else s.admins)
              && o.server.sessionUserids == s.sessionUserids[sid := who.userid]
              && o.server.sessionFullnames == s.sessionFullnames[sid := who.fullname]
              && o.server.sessionIsVoting == s.sessionIsVoting[sid := who.isVoting]
              && o.reply.InitialStatus?
              && (o.reply.alreadyRegistered <==> who.userid in s.round.userids)
              && o.reply.registrationActive == s.round.active
              && o.reply.registeredFullnames == s.round.fullnames
              && o.reply.adminState == who.isAdmin
              && o.reply.fullname == who.fullname
              && o.reply.votingTitle == s.round.title
  {
    if token !in s.loginSessions then Outcome(s, LoginUnknown)
    else
      var who := s.loginSessions[token];
      var s' := s.(
        loginSessions := s.loginSessions - {token},
        admins := if who.isAdmin then s.admins + [sid] else s.admins,
        sessionUserids := s.sessionUserids[sid := who.userid],
        sessionFullnames := s.sessionFullnames[sid := who.fullname],
        sessionIsVoting := s.sessionIsVoting[sid := who.isVoting]);
      Outcome(s', InitialStatus(
        s.round.active, s.round.fullnames, who.userid in s.round.userids,
        s.round.title, who.fullname, who.isAdmin))
  }

  // ---------------------------------------------------------------------
  // Runs of handlers

  /** One handler invocation, with the random draws it consumes. */
  datatype Event =
    | RegisterEvent(sid: SessionId)
    | ResetEvent(sid: SessionId)
    | StartEvent(sid: SessionId, title: string, link: string)
    | EndEvent(sid: SessionId, draws: seq<string>)
    | ConnectEvent(sid: SessionId, token: string)
    | LoginEvent(token: string, who: Identity)

  /** The random draws of an event have the shape the generators produce. */
  predicate DrawsFit(s: Server, e: Event)
  {
    match e
    case EndEvent(_, draws) =>
      |draws| == |s.round.sessionids| &&
      forall i :: 0 <= i < |draws| ==> IsToken(draws[i], DisplayTokenLength)
    case LoginEvent(token, _) => IsToken(token, LoginTokenLength)
    case _ => true
  }

  function Step(s: Server, e: Event): Server
    requires DrawsFit(s, e)
  {
    match e
    case RegisterEvent(sid) => Register(s, sid).server
    case ResetEvent(sid) => Reset(s, sid).server
    case StartEvent(sid, title, link) => Start(s, sid, title, link).server
    case EndEvent(sid, draws) => End(s, sid, draws).server
    case ConnectEvent(sid, token) => Connect(s, sid, token).server
    case LoginEvent(token, who) => Login(s, token, who)
  }

  /** Every event of the run has draws of the right shape when it happens. */
  predicate RunFits(s: Server, es: seq<Event>)
    decreases |es|
  {
    es == [] || (DrawsFit(s, es[0]) && RunFits(Step(s, es[0]), es[1..]))
  }

  function Run(s: Server, es: seq<Event>): Server
    requires RunFits(s, es)
    decreases |es|
  {
    if es == [] then s else Run(Step(s, es[0]), es[1..])
  }

  /** Every handler keeps the round invariant. */
  lemma StepKeepsValid(s: Server, e: Event)
    requires ValidRound(s.round) && DrawsFit(s, e)
    ensures ValidRound(Step(s, e).round)
  {
    match e
    case ResetEvent(sid) =>
    case StartEvent(sid, title, link) =>
    case _ =>
  }

  /** From any state meeting the round invariant, every run keeps it: no
      user id is registered twice, and while registration is active the
      three registration lists have the same length. */
  lemma {:induction false} RunKeepsValid(s: Server, es: seq<Event>)
    requires ValidRound(s.round) && RunFits(s, es)
    ensures ValidRound(Run(s, es).round)
    ensures Distinct(Run(s, es).round.userids)
    ensures Run(s, es).round.active ==>
              |Run(s, es).round.fullnames| == |Run(s, es).round.userids| == |Run(s, es).round.sessionids|
    decreases |es|
  {
    if es != [] {
      StepKeepsValid(s, es[0]);
      RunKeepsValid(Step(s, es[0]), es[1..]);
    }
  }

  /** Two sessions of the same user: the first registration succeeds, the
      second is refused, and the user id is on the list exactly once. */
  lemma RegisterSameUserTwice(s: Server, sid1: SessionId, sid2: SessionId)
    requires ValidRound(s.round) && s.round.active
    requires sid1 != sid2
    requires sid1 in s.sessionUserids && sid1 in s.sessionFullnames
    requires sid2 in s.sessionUserids && sid2 in s.sessionFullnames
    requires s.sessionUserids[sid1] == s.sessionUserids[sid2]
    requires s.sessionUserids[sid1] !in s.round.userids
    ensures Register(s, sid1).reply.Successful()
    ensures !Register(Register(s, sid1).server, sid2).reply.Successful()
    ensures var u := s.sessionUserids[sid1];
            var ids := Register(Register(s, sid1).server, sid2).server.round.userids;
            multiset(ids)[u] == 1
  {
    var u := s.sessionUserids[sid1];
    var s1 := Register(s, sid1).server;
    assert s1.round.userids == s.round.userids + [u];
    assert multiset(s.round.userids)[u] == 0;
  }

  /** A login token carries its identity into exactly one connection: the
      connection that presents it is given that identity, and a second
      connection presenting the same token is refused and changes nothing. */
  lemma LoginTokenSingleUse(s: Server, token: string, who: Identity, sid1: SessionId, sid2: SessionId)
    requires IsToken(token, LoginTokenLength)
    ensures var o1 := Connect(Login(s, token, who), sid1, token);
            && o1.reply.InitialStatus?
            && o1.reply.fullname == who.fullname && o1.reply.adminState == who.isAdmin
            && o1.server.sessionUserids[sid1] == who.userid
            && o1.server.sessionFullnames[sid1] == who.fullname
            && Connect(o1.server, sid2, token) == Outcome(o1.server, LoginUnknown)
  {
  }

  /** The published token list does not tell which session drew which
      token: it depends only on the tokens drawn, not on the order in which
      they were handed out. */
  lemma EndTokensHideOrder(s: Server, sid: SessionId, draws: seq<string>, other: seq<string>)
    requires |draws| == |s.round.sessionids|
    requires forall i :: 0 <= i < |draws| ==> IsToken(draws[i], DisplayTokenLength)
    requires multiset(other) == multiset(draws)
    ensures |other| == |s.round.sessionids|
    ensures forall i :: 0 <= i < |other| ==> IsToken(other[i], DisplayTokenLength)
    ensures End(s, sid, draws).reply == EndIgnored <==> End(s, sid, other).reply == EndIgnored
    ensures End(s, sid, draws).reply.Ended? ==>
              End(s, sid, draws).reply.allTokens == End(s, sid, other).reply.allTokens
  {
    assert |other| == |multiset(other)| == |multiset(draws)| == |draws|;
    forall i | 0 <= i < |other| ensures IsToken(other[i], DisplayTokenLength) {
      assert other[i] in multiset(other);
      assert other[i] in multiset(draws);
    }
    if End(s, sid, draws).reply.Ended? {
      SortedPermutationUnique(End(s, sid, draws).reply.allTokens, End(s, sid, other).reply.allTokens);
    }
  }

  /** A session that registered gives up its identity record, so after an
      admin reopens the round the same connection cannot register again:
      its next attempt raises `KeyError` and changes nothing. */
  lemma ReRegisterAfterResetRaises(s: Server, sid: SessionId, admin: SessionId)
    requires Register(s, sid).reply.Successful()
    requires admin in s.admins
    ensures var s2 := Reset(Register(s, sid).server, admin).server;
            Register(s2, sid) == Outcome(s2, Raised)
  {
  }

  /** The invariant holds in every state reachable from process start. */
  lemma RunFromStartKeepsValid(es: seq<Event>)
    requires RunFits(InitialServer, es)
    ensures ValidRound(Run(InitialServer, es).round)
    ensures Distinct(Run(InitialServer, es).round.userids)
  {
    RunKeepsValid(InitialServer, es);
  }
}

=== FILE: tokens.dfy ===
/** Random alphanumeric tokens: `generate_token` (50 characters in the
    registration front end, 20 in the early prototype) and
    `generate_display_token` (8 characters). Each character is
    `random.choice(string.ascii_letters + string.digits)`; the model takes the
    sequence of positions `random.choice` picked as a parameter. */
module Tokens {

  /** `string.ascii_letters + string.digits`, in Python's order: the 26
      lower-case letters, the 26 upper-case letters, the 10 digits. */
  const Alphabet: string := CodePointRun('a', 26) + CodePointRun('A', 26) + CodePointRun('0', 10)

  /** The `n` consecutive code points starting at `first`. */
  function CodePointRun(first: char, n: nat): (r: string)
    requires (first as int) + n <= 0xD800
    ensures |r| == n
    ensures forall i :: 0 <= i < n ==> r[i] as int == (first as int) + i
  {
    seq(n, i requires 0 <= i < n => ((first as int) + i) as char)
  }

  /** Length of the bearer token that carries a login into a live connection. */
  const LoginTokenLength: nat := 50
  /** Length of the anonymous token shown to a voter when registration ends. */
  const DisplayTokenLength: nat := 8
  /** Length of the room token of the early prototype. */
  const RoomTokenLength: nat := 20

  /** A character of the class [A-Za-z0-9]. */
  predicate IsAlnum(c: char)
  {
    ('a' <= c <= 'z') || ('A' <= c <= 'Z') || ('0' <= c <= '9')
  }

  /** `s` is a token of length `n` over [A-Za-z0-9]. */
  predicate IsToken(s: string, n: nat)
  {
    |s| == n && forall i :: 0 <= i < |s| ==> IsAlnum(s[i])
  }

  /** The alphabet holds exactly the characters of [A-Za-z0-9]. */
  lemma AlphabetIsAlnum(c: char)
    ensures c in Alphabet <==> IsAlnum(c)
  {
    if IsAlnum(c) {
      assert Alphabet[IndexOf(c)] == c;
    }
  }

  /** The position of an alphanumeric character in `Alphabet`. */
  function IndexOf(c: char): (i: nat)
    requires IsAlnum(c)
    ensures i < |Alphabet| && Alphabet[i] == c
  {
    if 'a' <= c <= 'z' then (c as int) - ('a' as int)
    else if 'A' <= c <= 'Z' then 26 + (c as int) - ('A' as int)
    else 52 + (c as int) - ('0' as int)
  }

  /** The token produced when `random.choice` picks the alphabet positions
      `picks`, one per character. */
  function GenerateToken(picks: seq<nat>): (t: string)
    requires forall i :: 0 <= i < |picks| ==> picks[i] < |Alphabet|
    ensures IsToken(t, |picks|)
    ensures forall i :: 0 <= i < |t| ==> t[i] == Alphabet[picks[i]]
  {
    if picks == [] then ""
    else
      var c := Alphabet[picks[0]];
      AlphabetIsAlnum(c);
      [c] + GenerateToken(picks[1..])
  }

  /** Every token of the right length and alphabet is one that the generator
      can draw, so a token parameter constrained by `IsToken` stands for
      exactly the values `generate_token` may return. */
  lemma {:induction false} EveryTokenIsDrawable(t: string)
    requires IsToken(t, |t|)
    ensures exists picks: seq<nat> ::
      (forall i :: 0 <= i < |picks| ==> picks[i] < |Alphabet|) && GenerateToken(picks) == t
  {
    var picks := seq(|t|, i requires 0 <= i < |t| => IndexOf(t[i]));
    assert GenerateToken(picks) == t;
  }
}

=== FILE: wrappers.dfy ===
/** The optional-value type used for Python's `None`, nullable columns and
    dictionary lookups that may miss. */
module Wrappers {

  datatype Option<+T> = None | Some(value: T)

}
